=== FILE: README.md ===
# Fidelity account history to investment statement, modelled in Dafny

This project models the core of `ofxstatement-fidelity`, a plugin that reads a Fidelity
"Account History" CSV export and turns it into an OFX investment statement:

- `parse_decimal`: thousands separators and spaces are dropped, and the rest is read as an
  exact Python `Decimal`, a sign, an integer coefficient and a power-of-ten exponent, within
  the limits of the C `decimal` module (module `Decimals`, with digit strings in `Digits`).
- `strptime(..., "%m/%d/%Y")` on the first ten characters of a date cell, and
  `strftime(..., "%Y%m%d")` for ids (module `Dates`).
- The table of ten anchored action prefixes that decides `trntype` and `trntype_detailed`,
  with the first match winning (module `Classifier`).
- `parse_record`: a row is skipped, becomes an `InvestStatementLine`, or raises because
  `parse_decimal` refused one of its columns (module `Records`).
- `IdGenerator.create_id`: a counter per date and ids `YYYYMMDD-k` (module `Ids`).
- The rest of `parse` after the file is read (module `Statements`):
  - the blank-row skip;
  - the account id taken from the file name by regular expression;
  - the reversal into chronological order;
  - the id pass with `assert_valid`;
  - the start and end dates.

A `Result` stands for an exception. Skipped rows and a statement whose file name does not
match the pattern are ordinary outcomes, not errors.

Behaviours of the code the model keeps:

- The code tests the date cell before the column count. Both tests lead to the same silent
  skip, so the order is only visible in which cell a reader looks at first.
- The classification table is tried in the code's order. "REINVESTMENT " comes first, and
  the model proves that the order cannot change any result.
- A statement with no records is returned with no start or end date. It is not an error.
- A settlement date that does not parse leaves the run date as `date_user`.
- A malformed decimal in an evaluated column aborts the whole parse, because the row-level
  `parse_decimal` is not guarded. The column is evaluated when it is fees or amount and
  non-empty, or when it is quantity or price on a buy or sell, even if empty.

## Model

| member | source | states |
|---|---|---|
| Decimals.ParseDecimal | src/ofxstatement_fidelity/plugin.py:51-53 | an accepted number has at least one character left after the separators go, it is negative exactly when that text starts with '-', and it lies within the C `decimal` module's limits (at most 999999999999999999 digits, adjusted exponent at most 999999999999999999, exponent at least -1999999999999999997) |
| Decimals.SeparatorIgnored | src/ofxstatement_fidelity/plugin.py:51-53 | inserting a ',' or ' ' anywhere never changes what `parse_decimal` returns, whether that is a number or an error |
| Decimals.StripSeparators | src/ofxstatement_fidelity/plugin.py:53 | dropping the separators never lengthens the text; `StripAppend` with `StripSingle` pins which characters go (every ',' and ' ') and which stay, in order |
| Decimals.StripSingle | src/ofxstatement_fidelity/plugin.py:53 | a lone ',' or ' ' is dropped and any other single character is kept |
| Decimals.StripAppend | src/ofxstatement_fidelity/plugin.py:53 | dropping the separators from two pieces of text joined is dropping them from each piece and joining the results |
| Decimals.StripRemovesAll | src/ofxstatement_fidelity/plugin.py:53 | the two `replace` calls leave no comma and no space |
| Decimals.StripKeepsOthers | src/ofxstatement_fidelity/plugin.py:53 | text that has no separators goes through the `replace` calls unchanged |
| Decimals.StripGroup | src/ofxstatement_fidelity/plugin.py:52-53 | a run of digits written with US thousands commas loses exactly those commas |
| Decimals.ParseRender | src/ofxstatement_fidelity/plugin.py:51-53 | every `Decimal` within the C module's limits, written with grouped digits, point and fraction when its exponent is not positive (as the export writes amounts) and in `E` notation otherwise, reads back as that same decimal (sign, coefficient and exponent); one outside the limits is refused |
| Decimals.ParseGroupedThousands | tests/test_parser.py:4-33 | a signed number with one thousands comma and a fraction reads as its digits run together, scaled by its fraction length: "1,234.56" is 1234.56 and "-1,234.56" is -1234.56; it is refused only when it has more digits than the C module's precision |
| Decimals.MinusNegates | tests/test_parser.py:20-33 | a leading '-' on an unsigned accepted number gives the same decimal, negated, and negates its value |
| Decimals.ParseEmptyFails | src/ofxstatement_fidelity/plugin.py:125-126 | an empty cell is not a number, so an empty quantity or price on a trade raises |
| Digits.DigitsRoundTrip | src/ofxstatement_fidelity/plugin.py:183 | the decimal digits written for a counter read back as the counter |
| Dates.ParseMdy | src/ofxstatement_fidelity/plugin.py:87 | a date accepted by `%m/%d/%Y` is a real calendar date |
| Dates.ParseFormatMdy | src/ofxstatement_fidelity/plugin.py:87 | a zero-padded `MM/DD/YYYY` reads back as its date when that date exists and is refused when it does not (month 13, 30 February, 29 February of a common year) |
| Dates.MonthRoundTrip | src/ofxstatement_fidelity/plugin.py:87 | a two-digit month is accepted exactly when it lies in 1 to 12 |
| Dates.DayRoundTrip | src/ofxstatement_fidelity/plugin.py:87 | a two-digit day field is accepted exactly when it lies in 1 to 31 |
| Dates.ParseFormatMdyPrefix | src/ofxstatement_fidelity/plugin.py:87 | only the first ten characters are read, so a trailing time of day does not stop a date cell from reading as its date |
| Dates.ParseShortForm | src/ofxstatement_fidelity/plugin.py:87 | months and days written without zero padding ("1/5/2023") are accepted too |
| Dates.ParseRejectsSlashless | src/ofxstatement_fidelity/plugin.py:86-89 | a cell with no '/' in it, such as a header or a disclaimer line, is never a date |
| Dates.FormatYmd | src/ofxstatement_fidelity/plugin.py:183 | `%Y%m%d` writes eight characters; `FormatYmdDigits` states which |
| Dates.FormatYmdDigits | src/ofxstatement_fidelity/plugin.py:183 | the `%Y%m%d` text of a date is eight digits that read back as its year, month and day |
| Classifier.FirstMatch | src/ofxstatement_fidelity/plugin.py:116-120 | the index found is that of a matching entry, and no entry before it matches |
| Classifier.ClassifyIn | src/ofxstatement_fidelity/plugin.py:116-120 | no kind is set exactly when no prefix of the table starts the action; a kind that is set belongs to a matching entry |
| Classifier.Classify | src/ofxstatement_fidelity/plugin.py:115-120 | an action is left unclassified exactly when none of the ten prefixes starts it |
| Classifier.AnyMatchDecides | src/ofxstatement_fidelity/plugin.py:116-120 | in a table where no prefix starts another, any matching entry decides the classification, not only the first |
| Classifier.MappingsNonOverlapping | src/ofxstatement_fidelity/plugin.py:27-38 | no prefix of the shipped table starts another one |
| Classifier.OrderIrrelevant | src/ofxstatement_fidelity/plugin.py:27-38 | any reordering of the shipped table classifies every action the same way |
| Classifier.ClassifyPrefixed | src/ofxstatement_fidelity/plugin.py:27-38 | an action that starts with an entry's prefix gets that entry's kind, whatever follows |
| Classifier.ClassifyBought | src/ofxstatement_fidelity/plugin.py:30 | "YOU BOUGHT ..." is BUYSTOCK/BUY |
| Classifier.ClassifyDividend | src/ofxstatement_fidelity/plugin.py:29 | "DIVIDEND RECEIVED ..." is INCOME/DIV |
| Records.DateField | src/ofxstatement_fidelity/plugin.py:87 | a run-date cell that parses gives a real calendar date |
| Records.SettlementDate | src/ofxstatement_fidelity/plugin.py:97-104 | `date_user` is the settlement date when that cell is non-empty and parses, and the run date otherwise |
| Records.OptionalDecimal | src/ofxstatement_fidelity/plugin.py:109-112 | an empty fee or amount cell leaves the field unset, a number sets it, and anything else raises on that column |
| Records.KindFields | src/ofxstatement_fidelity/plugin.py:122-129 | a buy or sell gets the symbol, quantity and price, and raises exactly when the quantity or the price is malformed, naming the quantity first; a dividend gets only the symbol; any other kind gets none of the three |
| Records.ParseRecord | src/ofxstatement_fidelity/plugin.py:86-129 | a row is skipped exactly when its first ten characters are not a date or it does not have 13 cells; any line produced has every field as the columns dictate (memo, fees, amount, classification, and security, units and price by kind) and no id |
| Records.ParseRecordFails | src/ofxstatement_fidelity/plugin.py:109-126 | a dated 13-cell row raises exactly when some column handed to `parse_decimal` is malformed; the column reported is the first such one, in the order fees, amount, quantity, price |
| Records.RaisesNot | src/ofxstatement_fidelity/plugin.py:109-126 | a dated 13-cell row whose evaluated columns all parse yields a line |
| Records.BoughtRow | src/ofxstatement_fidelity/plugin.py:123-126 | a purchase row whose fees and amount parse yields a line carrying the symbol, quantity and price next to its dates, memo, fees and amount |
| Records.DividendRow | src/ofxstatement_fidelity/plugin.py:128-129 | a dividend row whose fees and amount parse yields a line carrying the symbol, the fees and the amount, with no quantity or price whatever those cells hold |
| Ids.IdText | src/ofxstatement_fidelity/plugin.py:183 | an id is at least ten characters, with the '-' right after the eight date digits |
| Ids.CreateId | src/ofxstatement_fidelity/plugin.py:181-183 | the date's counter grows by one, every other date's counter is unchanged, and the id names the date with its new count |
| Ids.CreateIdDecodes | src/ofxstatement_fidelity/plugin.py:181-183 | the id returned reads back as the date and the number of calls on that date so far |
| Ids.DecodeIdText | src/ofxstatement_fidelity/plugin.py:183 | `YYYYMMDD-k` reads back as its date and its counter |
| Ids.IdTextInjective | src/ofxstatement_fidelity/plugin.py:183 | two ids are equal only when they name the same date and the same counter |
| Ids.Assign | src/ofxstatement_fidelity/plugin.py:159-161 | the id loop makes exactly one id per line; what each id is, is stated by `AssignAt` |
| Ids.AssignAt | src/ofxstatement_fidelity/plugin.py:176-183 | over a run of calls, the i-th id is its date with the starting counter plus that date's occurrences among the first i+1 calls |
| Ids.AssignFinal | src/ofxstatement_fidelity/plugin.py:176-183 | after a run of calls each date's counter has grown by the number of calls on it |
| Ids.AssignFresh | src/ofxstatement_fidelity/plugin.py:159-161 | from a fresh generator the i-th id's suffix counts the calls on its date up to and including it |
| Ids.AssignDistinct | src/ofxstatement_fidelity/plugin.py:176-183 | a run of calls never returns the same id twice, whatever the starting counters |
| Ids.AssignCovers | src/ofxstatement_fidelity/plugin.py:176-183 | from a fresh generator the suffixes given to a date that occurs n times are exactly 1 to n |
| Statements.Basename | src/ofxstatement_fidelity/plugin.py:150 | the base name is a suffix of the path that holds no '/' and is either the whole path or starts right after a '/', so it is everything after the last '/' |
| Statements.LastAt | src/ofxstatement_fidelity/plugin.py:149-151 | a position found is an occurrence of the pattern that ends within the bound |
| Statements.LastAtIsLast | src/ofxstatement_fidelity/plugin.py:149-151 | every occurrence ending within the bound lies no later than the one found, as greedy `.*` demands |
| Statements.MatchIn | src/ofxstatement_fidelity/plugin.py:149-151 | an account id matched on one line occurs in it between "History_for_Account_" and ".csv": the capture runs from the end of the last marker that still has a ".csv" after it up to the last ".csv" of the line, as the greedy `.*` pair picks |
| Statements.GreedyUnique | src/ofxstatement_fidelity/plugin.py:149-151 | a line has at most one such greedy choice of marker and ".csv", so the capture is determined |
| Statements.MatchInFinds | src/ofxstatement_fidelity/plugin.py:149-151 | a line holding "History_for_Account_" with ".csv" starting at or after its end always matches |
| Statements.AccountId | src/ofxstatement_fidelity/plugin.py:149-153 | an account id found occurs in the base name between "History_for_Account_" and ".csv" |
| Statements.AccountIdNeedsSuffix | src/ofxstatement_fidelity/plugin.py:149-153 | a name without ".csv" anywhere gives no account id |
| Statements.AccountIdOneLine | src/ofxstatement_fidelity/plugin.py:149-151 | on a name without line breaks, the search is the one-line greedy match |
| Statements.AccountIdOfExport | src/ofxstatement_fidelity/plugin.py:149-153 | an export named `...History_for_Account_<account>.csv` yields `<account>` as the account id |
| Statements.ReadRow | src/ofxstatement_fidelity/plugin.py:141-143 | a row contributes nothing exactly when it is blank, undated or not 13 cells wide; a line it yields is the accepted record with a valid date and no id; an error is the one `parse_record` raises |
| Statements.CollectBy | src/ofxstatement_fidelity/plugin.py:139-146 | the read loop keeps at most one record per row, and an error names a row on which the row reader raised, with its column |
| Statements.Collect | src/ofxstatement_fidelity/plugin.py:139-146 | every record read has a valid date and no id, and an error names a non-blank row on which `parse_record` raised |
| Statements.CollectRow | src/ofxstatement_fidelity/plugin.py:139-146 | a single row contributes nothing when skipped, its record when accepted, and its column when it raises |
| Statements.CollectByAppend | src/ofxstatement_fidelity/plugin.py:139-146 | reading two batches of rows equals reading the first, then the second with its row numbers shifted; an error in the first stops the read |
| Statements.CollectFails | src/ofxstatement_fidelity/plugin.py:139-146 | the read succeeds exactly when no non-blank row raises, and an error names the first row that does |
| Statements.Reverse | src/ofxstatement_fidelity/plugin.py:156 | `reverse` puts the element from position \|s\|-1-i at position i |
| Statements.ReverseInvolutive | src/ofxstatement_fidelity/plugin.py:156 | reversing twice gives the list back |
| Statements.Stamp | src/ofxstatement_fidelity/plugin.py:159-161 | the id pass gives every line an id and changes nothing else |
| Statements.StampId | src/ofxstatement_fidelity/plugin.py:159-161 | line i gets `YYYYMMDD-k`, where k counts the lines up to and including it that share its date |
| Statements.StampDistinct | src/ofxstatement_fidelity/plugin.py:159-161 | no two lines get the same id |
| Statements.MinDate | src/ofxstatement_fidelity/plugin.py:166-168 | the start date is one of the dates and no date precedes it |
| Statements.MaxDate | src/ofxstatement_fidelity/plugin.py:169-171 | the end date is one of the dates and no date follows it |
| Statements.FirstInvalid | src/ofxstatement_fidelity/plugin.py:159-163 | `assert_valid` passes on every line before the index found and fails on the line at it |
| Statements.Parse | src/ofxstatement_fidelity/plugin.py:133-173 | a statement returned carries broker "Fidelity", currency "USD" and the account id from the base name; every line has an id and passes `assert_valid`; the bounds are set exactly when there are lines. Parsing fails exactly when a row raises or a stamped line fails `assert_valid` |
| Statements.ParseLines | src/ofxstatement_fidelity/plugin.py:156-161 | the statement's lines are the records read, in reverse file order, each with the id that counts its date among the lines up to it |
| Statements.ParseShape | src/ofxstatement_fidelity/plugin.py:156-171 | a parsed statement's lines are the records read, reversed and stamped, and its start and end dates are the least and greatest of their dates, set only when there are lines |
| Statements.ParseIdsDistinct | src/ofxstatement_fidelity/plugin.py:159-161 | no two lines of a parsed statement share an id |
| Statements.ParseBounds | src/ofxstatement_fidelity/plugin.py:165-171 | the start and end dates of a non-empty statement are dates of its lines, and every line lies between them |

## Left out

- File I/O and `csv.reader` are not modelled, including the byte-order mark and quoting. `Parse` takes the rows the reader yields and the file name as parameters.
- `FidelityPlugin.get_parser` and the plugin registration (src/ofxstatement_fidelity/plugin.py:12-16) are glue.
- `parse_datetime`, `parse_value` and the `date_format` attribute (src/ofxstatement_fidelity/plugin.py:23, 48-49, 55-65) are never called by the parser. `parse_record` parses its dates inline.
- `assert_valid` belongs to the statement library, which is not part of this model. It is the `isValid` parameter of `Parse`, and a refused line becomes `InvalidLine` with its index.
- `cur_record` is only counted and never read. An error carries the 0-based row index and column instead.
- The `sl.date is not None` filter on the bounds is not modelled: every record has a date, so the filter never drops anything.
- Decimals.ParseDecimal: the limits are those of 64-bit builds of the C `decimal` module; 32-bit builds have smaller ones, and the pure-Python `decimal` has none. The model does not cover NaN, Infinity, underscores in digits, whitespace other than the stripped space, or non-ASCII digits. Python's `Decimal` accepts these; the model refuses them. A Fidelity export does not contain them.
- Dates.ParseMdy: only ASCII digits are read. Python's `\d` in the `strptime` patterns also matches other Unicode decimal digits, and these do not occur in an export.
- Dates.FormatYmdDigits: `%Y` is written as four zero-padded digits. The platform's `strftime` may not pad years below 1000, and such years do not occur in an export.
- Dates.ParseFormatMdy: this holds only for four-digit years (`d.year < 10000`), the range `%Y` reads back.
- A parser is modelled for one `parse()` call, the use `get_parser` sets up. The `Statement` and the `IdGenerator` are created in `__init__` (src/ofxstatement_fidelity/plugin.py:43-46), so a second `parse()` on the same parser would append to the earlier lines and continue the earlier counters.
- Statements.Basename: POSIX path rules are modelled, splitting only at `/`. `os.path.basename` (src/ofxstatement_fidelity/plugin.py:6, 150) on Windows also splits at `\` and after a drive letter, so there a name such as `C:\dl\History_for_Account_A\x.csv` gives no account id, where the model captures `A\x`.
- Statements.AccountId: on a name with a line break the contract states only that the capture lies between a marker and ".csv"; it does not say that the first line holding a match gives it, which the body does. A file name with a line break does not occur in practice, and on a one-line name `AccountIdOneLine` with `MatchIn` determines the capture.
- Regular-expression matching is modelled only for this one pattern: greedy `.*` that does not cross a line break, and a search over every start position.
- Statements.AccountIdOfExport: this requires an account number with no '_' and no line break. Other account numbers still go through `AccountId`; this lemma only leaves them unstated.
- The time of day of `datetime` values is left out, because every date parsed here is at midnight.
- `line[0]` is read before the 13-cell check (src/ofxstatement_fidelity/plugin.py:87), but only on rows the blank-row skip has let through (src/ofxstatement_fidelity/plugin.py:141-142), so it never raises `IndexError`; `ParseRecord` requires a non-empty row for that reason. The other cells are read only after the check. The exceptions that remain are `decimal.InvalidOperation` from `parse_decimal`, modelled as the column error, and `assert_valid`'s `AssertionError`, modelled as `InvalidLine`.
- tools/obfuscate.py (an export anonymiser) and tests/test_sample.py (a sample-file run) are not part of this model.

=== FILE: classifier.dfy ===
/** The transaction classifier: an ordered table of anchored literal prefixes on the
    action text; the first entry whose prefix starts the action decides the kind. */
module Classifier {
  import opened Wrappers
  import opened Strings

  /** The OFX investment transaction types the table produces. */
  datatype TrnType = BuyStock | SellStock | Income | InvBankTran

  /** The detailed types (`trntype_detailed`) the table produces. */
  datatype Detail = Buy | Sell | Div | Debit | Credit

  /** A transaction type with its detailed type; the table always sets the two together. */
  datatype Kind = Kind(trntype: TrnType, detail: Detail)

  datatype Mapping = Mapping(prefix: string, kind: Kind)

  /** The table, in the order it is tried. */
  const Mappings: seq<Mapping> := [
    Mapping("REINVESTMENT ", Kind(BuyStock, Buy)),
    Mapping("DIVIDEND RECEIVED ", Kind(Income, Div)),
    Mapping("YOU BOUGHT ", Kind(BuyStock, Buy)),
    Mapping("YOU SOLD ", Kind(SellStock, Sell)),
    Mapping("DIRECT DEBIT ", Kind(InvBankTran, Debit)),
    Mapping("Electronic Funds Transfer Paid ", Kind(InvBankTran, Debit)),
    Mapping("TRANSFERRED FROM ", Kind(InvBankTran, Credit)),
    Mapping("TRANSFERRED TO ", Kind(InvBankTran, Debit)),
    Mapping("DIRECT DEPOSIT ", Kind(InvBankTran, Credit)),
    Mapping("INTEREST EARNED ", Kind(InvBankTran, Credit))
  ]

  /** `re.compile("^" + prefix).match(action)`: the prefixes hold no regex metacharacters,
      so the pattern matches exactly when the action starts with the prefix. */
  predicate Matches(m: Mapping, action: string)
  {
    m.prefix <= action
  }

  /** The index of the first entry of `table` matching `action`, or `|table|` when none does. */
  function FirstMatch(table: seq<Mapping>, action: string): (r: nat)
    ensures r <= |table|
    ensures r < |table| ==> Matches(table[r], action)
    ensures forall k :: 0 <= k < r ==> !Matches(table[k], action)
  {
    if |table| == 0 then 0
    else if Matches(table[0], action) then 0
    else 1 + FirstMatch(table[1..], action)
  }

  /** The loop over a table that stops at the first match; `None` leaves both fields unset. */
  function ClassifyIn(table: seq<Mapping>, action: string): (r: Option<Kind>)
    ensures r.None? <==> forall k :: 0 <= k < |table| ==> !Matches(table[k], action)
    ensures r.Some? ==> exists j :: 0 <= j < |table| && Matches(table[j], action) && r.value == table[j].kind
  {
    var i := FirstMatch(table, action);
    if i < |table| then Some(table[i].kind) else None
  }

  /** The classification of an action text. */
  function Classify(action: string): (r: Option<Kind>)
    ensures r.None? <==> forall k :: 0 <= k < |Mappings| ==> !Matches(Mappings[k], action)
  {
    ClassifyIn(Mappings, action)
  }

  /** No prefix of the table starts another one, unless the two entries are the same. */
  predicate NonOverlapping(table: seq<Mapping>)
  {
    forall j, k :: 0 <= j < |table| && 0 <= k < |table| && table[j].prefix <= table[k].prefix ==> table[j] == table[k]
  }

  /** In a non-overlapping table any matching entry is the one the first-match loop finds. */
  lemma {:induction false} AnyMatchDecides(table: seq<Mapping>, action: string, j: nat)
    requires NonOverlapping(table)
    requires j < |table| && Matches(table[j], action)
    ensures ClassifyIn(table, action) == Some(table[j].kind)
  {
    var i := FirstMatch(table, action);
    assert i < |table|;
    if |table[i].prefix| <= |table[j].prefix| {
      PrefixesCompare(table[i].prefix, table[j].prefix, action);
    } else {
      PrefixesCompare(table[j].prefix, table[i].prefix, action);
    }
  }

  /** The shipped table is non-overlapping. */
  lemma MappingsNonOverlapping()
    ensures NonOverlapping(Mappings)
  {
    forall j, k | 0 <= j < |Mappings| && 0 <= k < |Mappings| && Mappings[j].prefix <= Mappings[k].prefix
      ensures Mappings[j] == Mappings[k]
    {
      PrefixIsSame(j, k);
    }
  }

  /** A prefix of another entry's prefix is that entry's own: the entries sharing a first
      letter differ by their fifth or thirteenth character. */
  lemma PrefixIsSame(j: nat, k: nat)
    requires j < |Mappings| && k < |Mappings| && Mappings[j].prefix <= Mappings[k].prefix
    ensures j == k
  {
    if j != k {
      var d := Divergence(j, k);
      assert false;
    }
  }

  /** A position at which two distinct entries' prefixes differ. */
  function Divergence(j: nat, k: nat): (d: nat)
    requires j < |Mappings| && k < |Mappings| && j != k
    ensures d < |Mappings[j].prefix| && d < |Mappings[k].prefix|
    ensures Mappings[j].prefix[d] != Mappings[k].prefix[d]
  {
    var p, q := Mappings[j].prefix, Mappings[k].prefix;
    if p[0] != q[0] then 0
    else if p[4] != q[4] then 4
    else 12
  }

  /** So the order of the table does not matter: any table holding the same entries classifies
      every action the same way. */
  lemma OrderIrrelevant(table: seq<Mapping>, action: string)
    requires forall m :: m in table <==> m in Mappings
    ensures ClassifyIn(table, action) == Classify(action)
  {
    MappingsNonOverlapping();
    assert NonOverlapping(table) by {
      forall j, k | 0 <= j < |table| && 0 <= k < |table| && table[j].prefix <= table[k].prefix
        ensures table[j] == table[k]
      {
        assert table[j] in Mappings && table[k] in Mappings;
      }
    }
    var i := FirstMatch(Mappings, action);
    if i < |Mappings| {
      assert Mappings[i] in table;
      var j :| 0 <= j < |table| && table[j] == Mappings[i];
      AnyMatchDecides(table, action, j);
    } else {
      forall k | 0 <= k < |table|
        ensures !Matches(table[k], action)
      {
        assert table[k] in Mappings;
      }
    }
  }

  /** An action starting with an entry's prefix is classified by that entry, whatever follows. */
  lemma ClassifyPrefixed(j: nat, rest: string)
    requires j < |Mappings|
    ensures Classify(Mappings[j].prefix + rest) == Some(Mappings[j].kind)
  {
    MappingsNonOverlapping();
    assert Mappings[j].prefix <= Mappings[j].prefix + rest;
    AnyMatchDecides(Mappings, Mappings[j].prefix + rest, j);
  }

  /** "YOU BOUGHT …" is a purchase. */
  lemma ClassifyBought(rest: string)
    ensures Classify("YOU BOUGHT " + rest) == Some(Kind(BuyStock, Buy))
  {
    assert Mappings[2] == Mapping("YOU BOUGHT ", Kind(BuyStock, Buy));
    ClassifyPrefixed(2, rest);
  }

  /** "DIVIDEND RECEIVED …" is a dividend. */
  lemma ClassifyDividend(rest: string)
    ensures Classify("DIVIDEND RECEIVED " + rest) == Some(Kind(Income, Div))
  {
    assert Mappings[1] == Mapping("DIVIDEND RECEIVED ", Kind(Income, Div));
    ClassifyPrefixed(1, rest);
  }
}

=== FILE: dates.dfy ===
/** Calendar dates as `datetime.strptime(text, "%m/%d/%Y")` reads them and
    `strftime` writes them back. */
module Dates {
  import opened Wrappers
  import opened Digits
  import opened Strings

  /** A calendar date; the time of day is always midnight and is not kept. */
  datatype Date = Date(year: nat, month: nat, day: nat)

  predicate IsLeapYear(y: nat)
  {
    y % 4 == 0 && (y % 100 != 0 || y % 400 == 0)
  }

  function DaysInMonth(y: nat, m: nat): (n: nat)
    requires 1 <= m <= 12
    ensures 28 <= n <= 31
  {
    if m == 2 then (if IsLeapYear(y) then 29 else 28)
    else if m == 4 || m == 6 || m == 9 || m == 11 then 30
    else 31
  }

  /** The dates `datetime` can hold (years 1 to 9999 of the proleptic Gregorian calendar). */
  predicate ValidDate(d: Date)
  {
    1 <= d.year <= 9999 && 1 <= d.month <= 12 && 1 <= d.day <= DaysInMonth(d.year, d.month)
  }

  /** Chronological order on dates. */
  predicate Before(a: Date, b: Date)
  {
    a.year < b.year
    || (a.year == b.year && a.month < b.month)
    || (a.year == b.year && a.month == b.month && a.day < b.day)
  }

  predicate NotAfter(a: Date, b: Date)
  {
    a == b || Before(a, b)
  }

  lemma NotAfterTotal(a: Date, b: Date)
    ensures NotAfter(a, b) || NotAfter(b, a)
  {
  }

  lemma NotAfterTransitive(a: Date, b: Date, c: Date)
    requires NotAfter(a, b) && NotAfter(b, c)
    ensures NotAfter(a, c)
  {
  }

  /** Python's slice `s[0:n]`. */
  function Head(s: string, n: nat): (r: string)
    ensures r <= s
    ensures |r| == if |s| <= n then |s| else n
  {
    if |s| <= n then s else s[..n]
  }

  /** The `%m` directive: `1[0-2]|0[1-9]|[1-9]`. */
  function ParseMonth(f: string): (r: Option<nat>)
    ensures r.Some? ==> 1 <= r.value <= 12
  {
    if |f| == 2 && f[0] == '1' && '0' <= f[1] <= '2' then Some(10 + DigitValue(f[1]))
    else if |f| == 2 && f[0] == '0' && '1' <= f[1] <= '9' then Some(DigitValue(f[1]))
    else if |f| == 1 && '1' <= f[0] <= '9' then Some(DigitValue(f[0]))
    else None
  }

  /** The `%d` directive: `3[01]|[12]\d|0[1-9]|[1-9]| [1-9]`. */
  function ParseDay(f: string): (r: Option<nat>)
    ensures r.Some? ==> 1 <= r.value <= 31
  {
    if |f| == 2 && f[0] == '3' && '0' <= f[1] <= '1' then Some(30 + DigitValue(f[1]))
    else if |f| == 2 && '1' <= f[0] <= '2' && IsDigit(f[1]) then Some(10 * DigitValue(f[0]) + DigitValue(f[1]))
    else if |f| == 2 && (f[0] == '0' || f[0] == ' ') && '1' <= f[1] <= '9' then Some(DigitValue(f[1]))
    else if |f| == 1 && '1' <= f[0] <= '9' then Some(DigitValue(f[0]))
    else None
  }

  /** The `%Y` directive: exactly four digits. */
  function ParseYear(f: string): (r: Option<nat>)
    ensures r.Some? ==> r.value < 10000
  {
    if |f| == 4 && AllDigits(f) then
      DigitsBound(f);
      Some(DigitsToNat(f))
    else None
  }

  /** `datetime.strptime(s, "%m/%d/%Y")`, `None` where Python raises `ValueError`:
      the whole of `s` must be month, slash, day, slash, year, and the date must exist. */
  function ParseMdy(s: string): (r: Option<Date>)
    ensures r.Some? ==> ValidDate(r.value)
  {
    var a := IndexOf(s, '/');
    if a == |s| then None
    else
      var rest := s[a + 1..];
      var b := IndexOf(rest, '/');
      if b == |rest| then None
      else Combine(ParseMonth(s[..a]), ParseDay(rest[..b]), ParseYear(rest[b + 1..]))
  }

  /** The date of three parsed fields, when all three parsed and the day exists in that month. */
  function Combine(month: Option<nat>, day: Option<nat>, year: Option<nat>): (r: Option<Date>)
    ensures r.Some? ==> ValidDate(r.value)
    ensures r.Some? <==> month.Some? && day.Some? && year.Some? && ValidDate(Date(year.value, month.value, day.value))
    ensures r.Some? ==> r.value == Date(year.value, month.value, day.value)
  {
    match (month, day, year)
    case (Some(m), Some(d), Some(y)) =>
      if ValidDate(Date(y, m, d)) then Some(Date(y, m, d)) else None
    case _ => None
  }

  /** Text made of three slash-free fields splits at its two slashes. */
  lemma ParseFields(f1: string, f2: string, f3: string)
    requires AllDigits(f1) && AllDigits(f2)
    ensures ParseMdy(f1 + "/" + f2 + "/" + f3) == Combine(ParseMonth(f1), ParseDay(f2), ParseYear(f3))
  {
    var rest := f2 + "/" + f3;
    var s := f1 + "/" + rest;
    assert f1 + "/" + f2 + "/" + f3 == s;
    SlashAfter(f1, rest);
    SlashAfter(f2, f3);
  }

  /** The first slash of `f + "/" + t`, for a field `f` of digits. */
  lemma SlashAfter(f: string, t: string)
    requires AllDigits(f)
    ensures var s := f + "/" + t; IndexOf(s, '/') == |f| && s[..|f|] == f && s[|f| + 1..] == t
  {
    var s := f + "/" + t;
    forall k | 0 <= k < |f|
      ensures s[k] != '/'
    {
      assert s[k] == f[k];
    }
    IndexOfIs(s, '/', |f|);
    assert s[..|f|] == f;
    assert s[|f| + 1..] == t;
  }

  /** The zero-padded `MM/DD/YYYY` text of a date, as the export writes it. */
  function FormatMdy(d: Date): (s: string)
    requires d.month < 100 && d.day < 100 && d.year < 10000
    ensures |s| == 10
  {
    FixedWidth(d.month, 2) + "/" + FixedWidth(d.day, 2) + "/" + FixedWidth(d.year, 4)
  }

  /** `strftime(d, "%Y%m%d")`. */
  function FormatYmd(d: Date): (s: string)
    requires ValidDate(d)
    ensures |s| == 8
  {
    FixedWidth(d.year, 4) + FixedWidth(d.month, 2) + FixedWidth(d.day, 2)
  }

  /** The eight digits of `FormatYmd` read back as year, month and day. */
  lemma FormatYmdDigits(d: Date)
    requires ValidDate(d)
    ensures var s := FormatYmd(d);
      && AllDigits(s)
      && DigitsToNat(s[..4]) == d.year && DigitsToNat(s[4..6]) == d.month && DigitsToNat(s[6..]) == d.day
  {
    var y, m, dd := FixedWidth(d.year, 4), FixedWidth(d.month, 2), FixedWidth(d.day, 2);
    var s := FormatYmd(d);
    assert s[..4] == y && s[4..6] == m && s[6..] == dd;
  }

  /** A two-digit field's value in terms of its characters. */
  lemma TwoDigits(f: string)
    requires |f| == 2 && AllDigits(f)
    ensures DigitsToNat(f) == 10 * DigitValue(f[0]) + DigitValue(f[1])
  {
    var h := f[..1];
    assert h[..0] == [] && h[0] == f[0];
    assert DigitsToNat(h) == DigitValue(f[0]);
  }

  /** Reading back a written date gives the date, and a written triple that is no date
      (month 13, 30 February) is refused. */
  lemma ParseFormatMdy(d: Date)
    requires d.month < 100 && d.day < 100 && d.year < 10000
    ensures ParseMdy(FormatMdy(d)) == if ValidDate(d) then Some(d) else None
  {
    var m, dd, y := FixedWidth(d.month, 2), FixedWidth(d.day, 2), FixedWidth(d.year, 4);
    assert FormatMdy(d) == m + "/" + dd + "/" + y;
    ParseFields(m, dd, y);
    MonthRoundTrip(d.month);
    DayRoundTrip(d.day);
    assert ParseYear(y) == Some(d.year);
    assert d == Date(d.year, d.month, d.day);
  }

  /** `%m` reads back a zero-padded month, and refuses `00` and `13` to `99`. */
  lemma MonthRoundTrip(m: nat)
    requires m < 100
    ensures ParseMonth(FixedWidth(m, 2)) == if 1 <= m <= 12 then Some(m) else None
  {
    TwoDigits(FixedWidth(m, 2));
  }

  /** `%d` reads back a zero-padded day, and refuses `00` and `32` to `99`. */
  lemma DayRoundTrip(day: nat)
    requires day < 100
    ensures ParseDay(FixedWidth(day, 2)) == if 1 <= day <= 31 then Some(day) else None
  {
    TwoDigits(FixedWidth(day, 2));
  }

  /** Text after the first ten characters (a time of day, say) does not matter. */
  lemma ParseFormatMdyPrefix(d: Date, tail: string)
    requires ValidDate(d)
    ensures ParseMdy(Head(FormatMdy(d) + tail, 10)) == Some(d)
  {
    assert Head(FormatMdy(d) + tail, 10) == FormatMdy(d);
    ParseFormatMdy(d);
  }

  /** The unpadded month and day forms `strptime` also accepts: "1/5/2023" is 5 January 2023. */
  lemma ParseShortForm(m: nat, day: nat, y: nat)
    requires 1 <= m <= 9 && 1 <= day <= 9 && ValidDate(Date(y, m, day))
    ensures ParseMdy([DigitChar(m)] + "/" + [DigitChar(day)] + "/" + FixedWidth(y, 4)) == Some(Date(y, m, day))
  {
    ParseFields([DigitChar(m)], [DigitChar(day)], FixedWidth(y, 4));
  }

  /** Text with no slash, such as a header cell, is not a date. */
  lemma ParseRejectsSlashless(s: string)
    requires forall k :: 0 <= k < |s| ==> s[k] != '/'
    ensures ParseMdy(s) == None
  {
    IndexOfIs(s, '/', |s|);
  }
}

=== FILE: decimals.dfy ===
/** The decimal normaliser: `parse_decimal` drops thousands separators and spaces and
    reads the rest as an exact Python `Decimal`. */
module Decimals {
  import opened Wrappers
  import opened Digits
  import opened Strings

  /** Python's `Decimal` triple: sign, integer coefficient and power-of-ten exponent.
      `Decimal("1234.56")` is `Decimal(false, 123456, -2)`; `-0` keeps its sign. */
  datatype Decimal = Decimal(negative: bool, coefficient: nat, exponent: int)

  function Scale(e: int): (r: real)
    ensures r > 0.0
  {
    if e >= 0 then Pow10(e) as real else 1.0 / Pow10(-e) as real
  }

  /** The number a decimal stands for. */
  function Value(d: Decimal): real
  {
    (if d.negative then -1.0 else 1.0) * d.coefficient as real * Scale(d.exponent)
  }

  /** The limits of the C `decimal` module on 64-bit platforms, which `Decimal(str)` converts
      under: at most `MaxPrec` significant digits, an adjusted exponent (the exponent of the
      leading digit) of at most `MaxEmax`, and an exponent of at least `Etiny`, the exponent of
      the smallest subnormal. A literal outside them cannot be held exactly and raises
      `InvalidOperation`. */
  const MaxPrec: int := 999_999_999_999_999_999
  const MaxEmax: int := 999_999_999_999_999_999
  const Etiny: int := -1_999_999_999_999_999_997

  /** A decimal `Decimal(str)` can hold exactly. The coefficient 0 counts as one digit. */
  predicate InRange(d: Decimal)
  {
    var digits := |NatToDigits(d.coefficient)|;
    digits <= MaxPrec && d.exponent + digits - 1 <= MaxEmax && Etiny <= d.exponent
  }

  /** The exact conversion: the decimal when it is in range, nothing otherwise. */
  function Exact(d: Decimal): (r: Option<Decimal>)
    ensures r.Some? <==> InRange(d)
    ensures r.Some? ==> r.value == d
  {
    if InRange(d) then Some(d) else None
  }

  predicate IsSeparator(c: char)
  {
    c == ',' || c == ' '
  }

  predicate NoSeparators(s: string)
  {
    forall i :: 0 <= i < |s| ==> !IsSeparator(s[i])
  }

  /** `value.replace(",", "").replace(" ", "")`. */
  function StripSeparators(s: string): (r: string)
    ensures |r| <= |s|
  {
    if |s| == 0 then ""
    else (if IsSeparator(s[0]) then "" else [s[0]]) + StripSeparators(s[1..])
  }

  /** Stripping removes every separator ... */
  lemma {:induction false} StripRemovesAll(s: string)
    ensures NoSeparators(StripSeparators(s))
  {
    if |s| > 0 {
      StripRemovesAll(s[1..]);
    }
  }

  /** ... and keeps everything else. */
  lemma {:induction false} StripKeepsOthers(s: string)
    requires NoSeparators(s)
    ensures StripSeparators(s) == s
  {
    if |s| > 0 {
      StripKeepsOthers(s[1..]);
      assert [s[0]] + s[1..] == s;
    }
  }

  /** A single character is dropped exactly when it is a separator. */
  lemma StripSingle(c: char)
    ensures StripSeparators([c]) == if IsSeparator(c) then [] else [c]
  {
  }

  /** Stripping works piece by piece, so with `StripSingle` it works one character at a time. */
  lemma {:induction false} StripAppend(a: string, b: string)
    ensures StripSeparators(a + b) == StripSeparators(a) + StripSeparators(b)
  {
    if |a| == 0 {
      assert a + b == b;
    } else {
      assert (a + b)[1..] == a[1..] + b;
      StripAppend(a[1..], b);
    }
  }

  /** An optional leading sign: whether it is `-`, and the text after it. */
  function SplitSign(t: string): (r: (bool, string))
    ensures |r.1| <= |t| <= |r.1| + 1 && r.1 == t[|t| - |r.1|..]
    ensures r.0 <==> |t| > 0 && t[0] == '-'
  {
    if |t| > 0 && (t[0] == '-' || t[0] == '+') then (t[0] == '-', t[1..]) else (false, t)
  }

  /** The mantissa before the first `e` or `E`, and the exponent text after it if there is one. */
  function SplitExponent(body: string): (r: (string, Option<string>))
    ensures r.0 <= body
    ensures r.1.None? <==> r.0 == body
  {
    var lower, upper := IndexOf(body, 'e'), IndexOf(body, 'E');
    var e := if lower < upper then lower else upper;
    if e == |body| then (body, None) else (body[..e], Some(body[e + 1..]))
  }

  /** The digits before the first point, and the text after it (empty when there is no point). */
  function SplitPoint(mantissa: string): (r: (string, string))
    ensures r.0 <= mantissa
    ensures |r.0| + |r.1| <= |mantissa|
  {
    var point := IndexOf(mantissa, '.');
    if point < |mantissa| then (mantissa[..point], mantissa[point + 1..]) else (mantissa, "")
  }

  /** The exponent after `E`: `[-+]?\d+`. */
  function ParseExponent(t: string): (r: Option<int>)
    ensures r.Some? ==> 1 <= |t|
  {
    var (neg, digits) := SplitSign(t);
    if |digits| >= 1 && AllDigits(digits) then
      Some(if neg then -(DigitsToNat(digits) as int) else DigitsToNat(digits))
    else None
  }

  /** The decimal of already split parts, when each part has the right shape: digits around
      the point, at least one of them, and a well-formed exponent if there is one. The exponent
      of the result accounts for the fractional digits. */
  function Assemble(intPart: string, fracPart: string, expText: Option<string>): (r: Option<Decimal>)
    ensures r.Some? ==> !r.value.negative && InRange(r.value)
    ensures r.Some? ==> AllDigits(intPart) && AllDigits(fracPart) && 1 <= |intPart| + |fracPart|
  {
    if !(AllDigits(intPart) && AllDigits(fracPart) && 1 <= |intPart| + |fracPart|) then None
    else
      match (if expText.None? then Some(0) else ParseExponent(expText.value))
      case None => None
      case Some(x) => Exact(Decimal(false, DigitsToNat(intPart + fracPart), x - |fracPart|))
  }

  /** The unsigned part of the syntax `Decimal()` accepts for finite numbers. */
  function ParseUnsigned(body: string): (r: Option<Decimal>)
    ensures r.Some? ==> !r.value.negative
  {
    var (mantissa, expText) := SplitExponent(body);
    var (intPart, fracPart) := SplitPoint(mantissa);
    Assemble(intPart, fracPart, expText)
  }

  /** The syntax `Decimal()` accepts for finite numbers, on text without separators:
      an optional sign and an unsigned number. */
  function ParseLiteral(t: string): (r: Option<Decimal>)
    ensures r.Some? ==> |t| >= 1 && (r.value.negative <==> t[0] == '-')
  {
    var (neg, body) := SplitSign(t);
    match ParseUnsigned(body)
    case None => None
    case Some(d) => Some(d.(negative := neg))
  }

  /** `parse_decimal`: `None` where `Decimal()` raises `InvalidOperation`. */
  function ParseDecimal(s: string): (r: Option<Decimal>)
    ensures r.Some? ==> |StripSeparators(s)| >= 1
    ensures r.Some? ==> (r.value.negative <==> StripSeparators(s)[0] == '-')
    ensures r.Some? ==> InRange(r.value)
  {
    ParseLiteral(StripSeparators(s))
  }

  /** A separator anywhere in the text is ignored. */
  lemma SeparatorIgnored(a: string, sep: char, b: string)
    requires IsSeparator(sep)
    ensures ParseDecimal(a + [sep] + b) == ParseDecimal(a + b)
  {
    StripAppend(a + [sep], b);
    StripAppend(a, [sep]);
    StripAppend(a, b);
    assert StripSeparators([sep]) == "";
    assert StripSeparators(a) + "" == StripSeparators(a);
  }

  /** An empty field is not a number: `Decimal("")` raises. */
  lemma ParseEmptyFails()
    ensures ParseDecimal("") == None
  {
  }

  /** Inserts `,` between every group of three digits, counting from the right. */
  function Group(s: string): (r: string)
    ensures |s| > 0 ==> |r| > 0 && r[0] == s[0]
  {
    if |s| <= 3 then s else Group(s[..|s| - 3]) + "," + s[|s| - 3..]
  }

  lemma {:induction false} StripGroup(s: string)
    requires NoSeparators(s)
    ensures StripSeparators(Group(s)) == s
  {
    if |s| <= 3 {
      StripKeepsOthers(s);
    } else {
      var h, l := s[..|s| - 3], s[|s| - 3..];
      assert Group(s) == (Group(h) + ",") + l;
      calc {
        StripSeparators((Group(h) + ",") + l);
        { StripAppend(Group(h) + ",", l); }
        StripSeparators(Group(h) + ",") + StripSeparators(l);
        { StripAppend(Group(h), ","); }
        StripSeparators(Group(h)) + StripSeparators(",") + StripSeparators(l);
        { StripGroup(h); StripKeepsOthers(l); assert StripSeparators(",") == ""; }
        h + "" + l;
        { assert h + "" + l == s; }
        s;
      }
    }
  }

  lemma SplitValue(p: string, n: nat)
    requires AllDigits(p) && n <= |p|
    ensures AllDigits(p[..n] + p[n..]) && DigitsToNat(p[..n] + p[n..]) == DigitsToNat(p)
  {
    assert p[..n] + p[n..] == p;
  }

  /** The coefficient's digits padded with leading zeros so that at least one digit
      stands before the point once `k` digits go after it. */
  function PaddedDigits(c: nat, k: nat): (p: string)
    ensures AllDigits(p) && |p| >= k + 1 && DigitsToNat(p) == c
  {
    var d := NatToDigits(c);
    DigitsRoundTrip(c);
    if |d| < k + 1 then
      LeadingZeros(k + 1 - |d|, d);
      Zeros(k + 1 - |d|) + d
    else d
  }

  /** The integer and fractional digits of a decimal with no positive exponent. */
  function PlainParts(d: Decimal): (r: (string, string))
    requires d.exponent <= 0
    ensures AllDigits(r.0) && AllDigits(r.1) && |r.0| >= 1 && |r.1| == -d.exponent
    ensures DigitsToNat(r.0 + r.1) == d.coefficient
  {
    var k := -d.exponent;
    var p := PaddedDigits(d.coefficient, k);
    SplitValue(p, |p| - k);
    (p[..|p| - k], p[|p| - k..])
  }

  function SignText(negative: bool): string
  {
    if negative then "-" else ""
  }

  /** The fractional part of the plain notation: nothing, or a point and the digits. */
  function PointFraction(fracPart: string): string
  {
    if |fracPart| == 0 then "" else "." + fracPart
  }

  /** A decimal written out: when the exponent is not positive, as the export writes amounts,
      with sign, grouped integer digits, point and fraction (`-1,234.56`); otherwise in `E`
      notation. */
  function Render(d: Decimal): string
  {
    if d.exponent <= 0 then
      var (intPart, fracPart) := PlainParts(d);
      SignText(d.negative) + Group(intPart) + PointFraction(fracPart)
    else
      SignText(d.negative) + NatToDigits(d.coefficient) + "E" + NatToDigits(d.exponent)
  }

  lemma DigitsHaveNoSeparators(s: string)
    requires AllDigits(s)
    ensures NoSeparators(s)
    ensures IndexOf(s, 'e') == |s| && IndexOf(s, 'E') == |s| && IndexOf(s, '.') == |s|
  {
    IndexOfIs(s, 'e', |s|);
    IndexOfIs(s, 'E', |s|);
    IndexOfIs(s, '.', |s|);
  }

  /** The sign in front of an unsigned number only sets the sign. */
  lemma SignedLiteral(neg: bool, body: string)
    requires |body| > 0 && body[0] != '-' && body[0] != '+'
    ensures ParseUnsigned(body).None? ==> ParseLiteral(SignText(neg) + body).None?
    ensures ParseUnsigned(body).Some? ==>
      ParseLiteral(SignText(neg) + body) == Some(ParseUnsigned(body).value.(negative := neg))
  {
    var t := SignText(neg) + body;
    if neg {
      assert t[0] == '-' && t[1..] == body;
    } else {
      assert t == body;
    }
    assert SplitSign(t) == (neg, body);
  }

  /** Integer digits with no point. */
  lemma WholeSplits(intPart: string)
    requires AllDigits(intPart)
    ensures SplitExponent(intPart) == (intPart, None) && SplitPoint(intPart) == (intPart, "")
  {
    DigitsHaveNoSeparators(intPart);
  }

  /** Integer digits, a point, fractional digits. */
  lemma PointSplits(intPart: string, fracPart: string)
    requires AllDigits(intPart) && AllDigits(fracPart) && |fracPart| >= 1
    ensures var body := intPart + PointFraction(fracPart);
      SplitExponent(body) == (body, None) && SplitPoint(body) == (intPart, fracPart)
  {
    var body := intPart + PointFraction(fracPart);
    assert body == intPart + "." + fracPart;
    IndexOfIs(body, 'e', |body|);
    IndexOfIs(body, 'E', |body|);
    IndexOfIs(body, '.', |intPart|);
    assert body[..|intPart|] == intPart;
    assert body[|intPart| + 1..] == fracPart;
  }

  /** The plain notation: integer digits, then a point and the fractional digits if any. */
  lemma UnsignedPlain(intPart: string, fracPart: string)
    requires AllDigits(intPart) && AllDigits(fracPart) && |intPart| >= 1
    ensures ParseUnsigned(intPart + PointFraction(fracPart))
      == Exact(Decimal(false, DigitsToNat(intPart + fracPart), -|fracPart|))
  {
    if |fracPart| == 0 {
      UnsignedWhole(intPart);
      assert intPart + PointFraction(fracPart) == intPart;
      assert intPart + fracPart == intPart;
    } else {
      UnsignedPoint(intPart, fracPart);
    }
  }

  lemma UnsignedWhole(intPart: string)
    requires AllDigits(intPart) && |intPart| >= 1
    ensures ParseUnsigned(intPart) == Exact(Decimal(false, DigitsToNat(intPart), 0))
  {
    WholeSplits(intPart);
    assert ParseUnsigned(intPart) == Assemble(intPart, "", None);
    assert intPart + "" == intPart;
  }

  lemma UnsignedPoint(intPart: string, fracPart: string)
    requires AllDigits(intPart) && AllDigits(fracPart) && |intPart| >= 1 && |fracPart| >= 1
    ensures ParseUnsigned(intPart + PointFraction(fracPart))
      == Exact(Decimal(false, DigitsToNat(intPart + fracPart), -|fracPart|))
  {
    PointSplits(intPart, fracPart);
    assert ParseUnsigned(intPart + PointFraction(fracPart)) == Assemble(intPart, fracPart, None);
  }

  lemma ParseExponentDigits(x: nat)
    ensures ParseExponent(NatToDigits(x)) == Some(x as int)
  {
    var xs := NatToDigits(x);
    assert xs[0] != '-' && xs[0] != '+';
    assert SplitSign(xs) == (false, xs);
    DigitsRoundTrip(x);
  }

  lemma ScientificSplits(digits: string, xs: string)
    requires AllDigits(digits) && AllDigits(xs)
    ensures SplitExponent(digits + "E" + xs) == (digits, Some(xs))
    ensures SplitPoint(digits) == (digits, "")
  {
    var body := digits + "E" + xs;
    IndexOfIs(body, 'e', |body|);
    IndexOfIs(body, 'E', |digits|);
    assert body[..|digits|] == digits;
    assert body[|digits| + 1..] == xs;
    IndexOfIs(digits, '.', |digits|);
  }

  /** The `E` notation: digits, `E`, exponent digits. */
  lemma UnsignedScientific(c: nat, x: nat)
    ensures ParseUnsigned(NatToDigits(c) + "E" + NatToDigits(x)) == Exact(Decimal(false, c, x))
  {
    var digits, xs := NatToDigits(c), NatToDigits(x);
    ScientificSplits(digits, xs);
    assert ParseUnsigned(digits + "E" + xs) == Assemble(digits, "", Some(xs));
    DigitsRoundTrip(c);
    ParseExponentDigits(x);
    assert digits + "" == digits;
  }

  /** Reading back a rendered decimal gives the same decimal: the normaliser keeps sign,
      every digit and the exponent. A decimal outside the C module's range is refused. */
  lemma ParseRender(d: Decimal)
    ensures InRange(d) ==> ParseDecimal(Render(d)) == Some(d)
    ensures !InRange(d) ==> ParseDecimal(Render(d)) == None
  {
    if d.exponent <= 0 {
      ParseRenderPlain(d);
    } else {
      ParseRenderScientific(d);
    }
  }

  lemma ParseRenderPlain(d: Decimal)
    requires d.exponent <= 0
    ensures ParseDecimal(Render(d)) == Exact(d)
  {
    RenderedPlainStrips(d);
    PlainPartsParse(d);
  }

  lemma PlainPartsParse(d: Decimal)
    requires d.exponent <= 0
    ensures ParseLiteral(SignText(d.negative) + PlainParts(d).0 + PointFraction(PlainParts(d).1)) == Exact(d)
  {
    var parts := PlainParts(d);
    SignedPlain(d.negative, parts.0, parts.1);
    assert Decimal(d.negative, DigitsToNat(parts.0 + parts.1), -|parts.1|) == d;
  }

  /** Stripping a rendered decimal leaves its sign, digits and point. */
  lemma RenderedPlainStrips(d: Decimal)
    requires d.exponent <= 0
    ensures StripSeparators(Render(d)) == SignText(d.negative) + PlainParts(d).0 + PointFraction(PlainParts(d).1)
  {
    var parts := PlainParts(d);
    assert Render(d) == SignText(d.negative) + Group(parts.0) + PointFraction(parts.1);
    StripRenderedPlain(SignText(d.negative), parts.0, parts.1);
  }

  /** A signed number in plain notation. */
  lemma SignedPlain(neg: bool, intPart: string, fracPart: string)
    requires AllDigits(intPart) && AllDigits(fracPart) && |intPart| >= 1
    ensures ParseLiteral(SignText(neg) + intPart + PointFraction(fracPart))
      == Exact(Decimal(neg, DigitsToNat(intPart + fracPart), -|fracPart|))
  {
    var body := intPart + PointFraction(fracPart);
    var d := Decimal(false, DigitsToNat(intPart + fracPart), -|fracPart|);
    assert SignText(neg) + intPart + PointFraction(fracPart) == SignText(neg) + body;
    assert body[0] == intPart[0];
    UnsignedPlain(intPart, fracPart);
    SignedLiteral(neg, body);
    ExactSigned(d, neg);
  }

  /** The range does not depend on the sign. */
  lemma ExactSigned(d: Decimal, neg: bool)
    ensures Exact(d.(negative := neg)) == if InRange(d) then Some(d.(negative := neg)) else None
  {
    assert InRange(d) == InRange(d.(negative := neg));
  }

  lemma StripRenderedPlain(sign: string, intPart: string, fracPart: string)
    requires NoSeparators(sign) && AllDigits(intPart) && AllDigits(fracPart)
    ensures StripSeparators(sign + Group(intPart) + PointFraction(fracPart)) == sign + intPart + PointFraction(fracPart)
  {
    var tail := PointFraction(fracPart);
    DigitsHaveNoSeparators(fracPart);
    DigitsHaveNoSeparators(intPart);
    assert NoSeparators(tail);
    StripKeepsOthers(tail);
    StripKeepsOthers(sign);
    StripGroup(intPart);
    StripAppend(sign + Group(intPart), tail);
    StripAppend(sign, Group(intPart));
  }

  lemma ParseRenderScientific(d: Decimal)
    requires d.exponent > 0
    ensures ParseDecimal(Render(d)) == Exact(d)
  {
    var sign := SignText(d.negative);
    var body := NatToDigits(d.coefficient) + "E" + NatToDigits(d.exponent);
    var text := sign + body;
    assert Render(d) == text;
    DigitsHaveNoSeparators(NatToDigits(d.coefficient));
    DigitsHaveNoSeparators(NatToDigits(d.exponent));
    assert NoSeparators(text);
    StripKeepsOthers(text);
    assert body[0] == NatToDigits(d.coefficient)[0];
    SignedLiteral(d.negative, body);
    UnsignedScientific(d.coefficient, d.exponent);
  }

  /** A leading minus flips the sign and nothing else. */
  lemma MinusNegates(t: string)
    requires ParseDecimal(t).Some?
    requires StripSeparators(t)[0] != '-' && StripSeparators(t)[0] != '+'
    ensures ParseDecimal("-" + t) == Some(ParseDecimal(t).value.(negative := true))
    ensures Value(ParseDecimal("-" + t).value) == -Value(ParseDecimal(t).value)
  {
    var u := StripSeparators(t);
    StripAppend("-", t);
    assert StripSeparators("-") == "-";
    assert ParseDecimal("-" + t) == ParseLiteral(SignText(true) + u);
    assert ParseDecimal(t) == ParseLiteral(SignText(false) + u);
    SignedLiteral(true, u);
    SignedLiteral(false, u);
    ValueNegated(ParseDecimal(t).value);
  }

  lemma ValueNegated(d: Decimal)
    requires !d.negative
    ensures Value(d.(negative := true)) == -Value(d)
  {
    var m := d.coefficient as real * Scale(d.exponent);
    assert Value(d) == 1.0 * m;
    assert Value(d.(negative := true)) == -1.0 * m;
  }

  /** An amount with one thousands separator reads as its digits run together, with its
      sign and every fractional digit: "1,234.56" is 1234.56 and "-1,234.56" is -1234.56.
      Any amount short enough for the C module's precision is in range. */
  lemma ParseGroupedThousands(neg: bool, hi: string, lo: string, frac: string)
    requires AllDigits(hi) && |hi| >= 1 && AllDigits(lo) && AllDigits(frac)
    ensures ParseDecimal(SignText(neg) + hi + "," + lo + PointFraction(frac))
      == Exact(Decimal(neg, DigitsToNat(hi + lo + frac), -|frac|))
    ensures |hi| + |lo| + |frac| <= MaxPrec ==>
      ParseDecimal(SignText(neg) + hi + "," + lo + PointFraction(frac))
        == Some(Decimal(neg, DigitsToNat(hi + lo + frac), -|frac|))
  {
    StripGrouped(neg, hi, lo, frac);
    SignedPlain(neg, hi + lo, frac);
    assert hi + lo + frac == (hi + lo) + frac;
    if |hi| + |lo| + |frac| <= MaxPrec {
      ShortInRange(neg, hi + lo + frac, |frac|);
    }
  }

  /** A coefficient written with at most `MaxPrec` digits, `k` of them after the point, is in range. */
  lemma ShortInRange(neg: bool, s: string, k: nat)
    requires AllDigits(s) && 1 <= |s| <= MaxPrec && k < |s|
    ensures InRange(Decimal(neg, DigitsToNat(s), -(k as int)))
  {
    DigitsBound(s);
    NatToDigitsLength(DigitsToNat(s), |s|);
  }

  lemma StripGrouped(neg: bool, hi: string, lo: string, frac: string)
    requires AllDigits(hi) && AllDigits(lo) && AllDigits(frac)
    ensures AllDigits(hi + lo)
    ensures StripSeparators(SignText(neg) + hi + "," + lo + PointFraction(frac))
      == SignText(neg) + (hi + lo) + PointFraction(frac)
  {
    var a, b := SignText(neg) + hi, lo + PointFraction(frac);
    Regroup(SignText(neg), hi, lo, PointFraction(frac));
    DigitsHaveNoSeparators(hi);
    DigitsHaveNoSeparators(lo);
    DigitsHaveNoSeparators(frac);
    assert NoSeparators(a) && NoSeparators(b);
    StripKeepsOthers(a);
    StripKeepsOthers(b);
    StripAppend(a + [','], b);
    StripAppend(a, [',']);
    assert StripSeparators([',']) == "";
    assert a + "" == a;
    calc {
      StripSeparators(SignText(neg) + hi + "," + lo + PointFraction(frac));
      StripSeparators((a + [',']) + b);
      StripSeparators(a + [',']) + StripSeparators(b);
      (StripSeparators(a) + StripSeparators([','])) + StripSeparators(b);
      a + b;
      SignText(neg) + (hi + lo) + PointFraction(frac);
    }
    assert AllDigits(hi + lo);
  }

  lemma Regroup(s: string, hi: string, lo: string, f: string)
    ensures s + hi + "," + lo + f == ((s + hi) + [',']) + (lo + f)
    ensures (s + hi) + (lo + f) == s + (hi + lo) + f
  {
  }
}

=== FILE: digits.dfy ===
/** Decimal digit strings and their values: `int(s)` and `str(n)` restricted to ASCII digits. */
module Digits {

  predicate IsDigit(c: char)
  {
    '0' <= c <= '9'
  }

  predicate AllDigits(s: string)
  {
    forall i :: 0 <= i < |s| ==> IsDigit(s[i])
  }

  function DigitValue(c: char): (v: nat)
    requires IsDigit(c)
    ensures v < 10
  {
    c as int - '0' as int
  }

  function DigitChar(n: nat): (c: char)
    requires n < 10
    ensures IsDigit(c) && DigitValue(c) == n
  {
    ('0' as int + n) as char
  }

  function Pow10(k: nat): (r: nat)
    ensures r >= 1
  {
    if k == 0 then 1 else 10 * Pow10(k - 1)
  }

  /** The value of a digit string, most significant digit first; `""` is 0. */
  function DigitsToNat(s: string): nat
    requires AllDigits(s)
  {
    if |s| == 0 then 0 else DigitsToNat(s[..|s| - 1]) * 10 + DigitValue(s[|s| - 1])
  }

  /** Python's `str(n)`: the shortest decimal rendering, no leading zero. */
  function NatToDigits(n: nat): (r: string)
    ensures AllDigits(r)
    ensures 1 <= |r|
    ensures r[0] == '0' ==> n == 0
  {
    if n < 10 then [DigitChar(n)] else NatToDigits(n / 10) + [DigitChar(n % 10)]
  }

  lemma {:induction false} DigitsRoundTrip(n: nat)
    ensures DigitsToNat(NatToDigits(n)) == n
  {
    if n >= 10 {
      var s := NatToDigits(n);
      assert s[..|s| - 1] == NatToDigits(n / 10);
      DigitsRoundTrip(n / 10);
    }
  }

  lemma {:induction false} NatToDigitsLength(n: nat, w: nat)
    requires 1 <= w && n < Pow10(w)
    ensures |NatToDigits(n)| <= w
  {
    if n >= 10 {
      assert w >= 2;
      NatToDigitsLength(n / 10, w - 1);
    }
  }

  function Zeros(k: nat): (r: string)
    ensures |r| == k && AllDigits(r)
  {
    seq(k, _ => '0')
  }

  lemma {:induction false} ZerosValue(k: nat)
    ensures DigitsToNat(Zeros(k)) == 0
  {
    if k > 0 {
      assert Zeros(k)[..k - 1] == Zeros(k - 1);
      ZerosValue(k - 1);
    }
  }

  /** Leading zeros do not change the value of a digit string. */
  lemma {:induction false} LeadingZeros(k: nat, s: string)
    requires AllDigits(s)
    ensures AllDigits(Zeros(k) + s)
    ensures DigitsToNat(Zeros(k) + s) == DigitsToNat(s)
  {
    var t := Zeros(k) + s;
    if |s| == 0 {
      assert t == Zeros(k);
      ZerosValue(k);
    } else {
      assert t[..|t| - 1] == Zeros(k) + s[..|s| - 1];
      LeadingZeros(k, s[..|s| - 1]);
    }
  }

  /** `n` zero-padded to exactly `w` digits, as `%0wd` prints it. */
  function FixedWidth(n: nat, w: nat): (r: string)
    requires 1 <= w && n < Pow10(w)
    ensures |r| == w && AllDigits(r)
    ensures DigitsToNat(r) == n
  {
    var s := NatToDigits(n);
    NatToDigitsLength(n, w);
    LeadingZeros(w - |s|, s);
    DigitsRoundTrip(n);
    Zeros(w - |s|) + s
  }

  /** A digit string of length `k` is worth less than `10^k`. */
  lemma {:induction false} DigitsBound(s: string)
    requires AllDigits(s)
    ensures DigitsToNat(s) < Pow10(|s|)
  {
    if |s| > 0 {
      DigitsBound(s[..|s| - 1]);
    }
  }
}

=== FILE: ids.dfy ===
/** The id generator: a counter per date, and ids of the form `YYYYMMDD-k` where `k` is
    the counter of that date after the call. */
module Ids {
  import opened Wrappers
  import opened Digits
  import opened Dates

  /** The counters of the generator: how many ids each date has been given. */
  type Counters = map<Date, nat>

  /** The id text of the `k`-th id of date `d`. */
  function IdText(d: Date, k: nat): (r: string)
    requires ValidDate(d)
    ensures |r| >= 10 && r[8] == '-'
  {
    FormatYmd(d) + "-" + NatToDigits(k)
  }

  /** `create_id`: bumps the counter of `date` and names the id after it. */
  function CreateId(counts: Counters, date: Date): (r: (Counters, string))
    requires ValidDate(date)
    ensures Lookup(r.0, date) == Lookup(counts, date) + 1
    ensures forall e :: e != date ==> Lookup(r.0, e) == Lookup(counts, e)
    ensures r.1 == IdText(date, Lookup(r.0, date))
  {
    var n := Lookup(counts, date) + 1;
    (counts[date := n], IdText(date, n))
  }

  /** The `k`-th call on a date returns an id that reads back as that date and `k`. */
  lemma CreateIdDecodes(counts: Counters, date: Date)
    requires ValidDate(date)
    ensures DecodeId(CreateId(counts, date).1) == Some((date, Lookup(counts, date) + 1))
  {
    DecodeIdText(date, Lookup(counts, date) + 1);
  }

  /** Reads an id back: eight digits naming a valid date, a dash, and the counter in digits. */
  function DecodeId(s: string): (r: Option<(Date, nat)>)
    ensures r.Some? ==> ValidDate(r.value.0)
  {
    if |s| >= 10 && AllDigits(s[..8]) && s[8] == '-' && AllDigits(s[9..]) then
      var ymd := s[..8];
      var d := Date(DigitsToNat(ymd[..4]), DigitsToNat(ymd[4..6]), DigitsToNat(ymd[6..]));
      if ValidDate(d) then Some((d, DigitsToNat(s[9..]))) else None
    else None
  }

  /** The id of the `k`-th call on date `d` reads back as `d` and `k`. */
  lemma DecodeIdText(d: Date, k: nat)
    requires ValidDate(d)
    ensures DecodeId(IdText(d, k)) == Some((d, k))
  {
    var ymd, tail := FormatYmd(d), NatToDigits(k);
    FormatYmdDigits(d);
    var s := IdText(d, k);
    assert s[..8] == ymd;
    assert s[9..] == tail;
    DigitsRoundTrip(k);
  }

  /** So two ids are equal only when they name the same date and the same counter. */
  lemma IdTextInjective(d: Date, k: nat, e: Date, n: nat)
    requires ValidDate(d) && ValidDate(e)
    requires IdText(d, k) == IdText(e, n)
    ensures d == e && k == n
  {
    DecodeIdText(d, k);
    DecodeIdText(e, n);
  }

  /** One pass of the generator over a sequence of dates, in order: the ids and the final counters. */
  function Assign(counts: Counters, dates: seq<Date>): (r: (Counters, seq<string>))
    requires forall i :: 0 <= i < |dates| ==> ValidDate(dates[i])
    ensures |r.1| == |dates|
    decreases |dates|
  {
    if |dates| == 0 then (counts, [])
    else
      var (next, id) := CreateId(counts, dates[0]);
      var (last, ids) := Assign(next, dates[1..]);
      (last, [id] + ids)
  }

  /** The number of times `d` occurs among the first `n` dates. */
  function Seen(dates: seq<Date>, n: nat, d: Date): nat
    requires n <= |dates|
  {
    multiset(dates[..n])[d]
  }

  /** The counter a pass gives its `i`-th date: the counter it started from plus the number of
      times that date has occurred so far, this call included. */
  function Suffix(counts: Counters, dates: seq<Date>, i: nat): nat
    requires i < |dates|
  {
    Lookup(counts, dates[i]) + Seen(dates, i + 1, dates[i])
  }

  /** The `i`-th id of a pass names its date and its counter. */
  lemma {:induction false} AssignAt(counts: Counters, dates: seq<Date>, i: nat)
    requires forall j :: 0 <= j < |dates| ==> ValidDate(dates[j])
    requires i < |dates|
    ensures Assign(counts, dates).1[i] == IdText(dates[i], Suffix(counts, dates, i))
    decreases i
  {
    if i == 0 {
      AssignFirst(counts, dates);
    } else {
      var next := CreateId(counts, dates[0]).0;
      AssignShift(counts, dates, i);
      AssignAt(next, dates[1..], i - 1);
    }
  }

  /** The first id of a pass. */
  lemma AssignFirst(counts: Counters, dates: seq<Date>)
    requires forall j :: 0 <= j < |dates| ==> ValidDate(dates[j])
    requires 0 < |dates|
    ensures Assign(counts, dates).1[0] == IdText(dates[0], Suffix(counts, dates, 0))
  {
    assert dates[..1] == [dates[0]];
    assert Suffix(counts, dates, 0) == Lookup(counts, dates[0]) + 1;
    assert Assign(counts, dates).1[0] == CreateId(counts, dates[0]).1;
  }

  /** A later id of a pass is the id the rest of the pass gives it after the first call. */
  lemma AssignShift(counts: Counters, dates: seq<Date>, i: nat)
    requires forall j :: 0 <= j < |dates| ==> ValidDate(dates[j])
    requires 0 < i < |dates|
    ensures var next := CreateId(counts, dates[0]).0;
      && Assign(counts, dates).1[i] == Assign(next, dates[1..]).1[i - 1]
      && dates[i] == dates[1..][i - 1]
      && Suffix(counts, dates, i) == Suffix(next, dates[1..], i - 1)
  {
    var next := CreateId(counts, dates[0]).0;
    assert Assign(counts, dates).1 == [CreateId(counts, dates[0]).1] + Assign(next, dates[1..]).1;
    SuffixShift(counts, next, dates, i);
  }

  /** The counter of the `i`-th date, seen from the counters after the first call. */
  lemma SuffixShift(counts: Counters, next: Counters, dates: seq<Date>, i: nat)
    requires 0 < i < |dates|
    requires Lookup(next, dates[0]) == Lookup(counts, dates[0]) + 1
    requires forall e :: e != dates[0] ==> Lookup(next, e) == Lookup(counts, e)
    ensures Suffix(counts, dates, i) == Suffix(next, dates[1..], i - 1)
  {
    var tail := dates[1..];
    var e := dates[i];
    assert tail[i - 1] == e;
    assert dates[..i + 1] == [dates[0]] + tail[..i];
    assert Seen(dates, i + 1, e) == (if dates[0] == e then 1 else 0) + Seen(tail, i, e);
  }

  /** After a pass each counter has grown by the occurrences of its date. */
  lemma {:induction false} AssignFinal(counts: Counters, dates: seq<Date>, e: Date)
    requires forall j :: 0 <= j < |dates| ==> ValidDate(dates[j])
    ensures Lookup(Assign(counts, dates).0, e) == Lookup(counts, e) + multiset(dates)[e]
    decreases |dates|
  {
    if |dates| > 0 {
      var next := CreateId(counts, dates[0]).0;
      AssignFinal(next, dates[1..], e);
      AssignCountersStep(counts, dates);
      OccurrencesStep(dates, e);
    }
  }

  /** The final counters of a pass are those of the rest of the pass after the first call. */
  lemma AssignCountersStep(counts: Counters, dates: seq<Date>)
    requires forall j :: 0 <= j < |dates| ==> ValidDate(dates[j])
    requires |dates| > 0
    ensures Assign(counts, dates).0 == Assign(CreateId(counts, dates[0]).0, dates[1..]).0
  {
  }

  lemma OccurrencesStep(dates: seq<Date>, e: Date)
    requires |dates| > 0
    ensures multiset(dates)[e] == multiset(dates[1..])[e] + if dates[0] == e then 1 else 0
  {
    assert dates == [dates[0]] + dates[1..];
  }

  /** A pass from fresh counters numbers each date's ids 1, 2, 3, … in call order. */
  lemma AssignFresh(dates: seq<Date>, i: nat)
    requires forall j :: 0 <= j < |dates| ==> ValidDate(dates[j])
    requires i < |dates|
    ensures Assign(map[], dates).1[i] == IdText(dates[i], Seen(dates, i + 1, dates[i]))
  {
    AssignAt(map[], dates, i);
  }

  /** Within one pass no two ids coincide, whatever counters the generator started with. */
  lemma AssignDistinct(counts: Counters, dates: seq<Date>, i: nat, j: nat)
    requires forall k :: 0 <= k < |dates| ==> ValidDate(dates[k])
    requires i < j < |dates|
    ensures Assign(counts, dates).1[i] != Assign(counts, dates).1[j]
  {
    AssignAt(counts, dates, i);
    AssignAt(counts, dates, j);
    SuffixGrows(counts, dates, i, j);
    if Assign(counts, dates).1[i] == Assign(counts, dates).1[j] {
      IdTextInjective(dates[i], Suffix(counts, dates, i), dates[j], Suffix(counts, dates, j));
    }
  }

  /** A later call on the same date gets a larger counter. */
  lemma SuffixGrows(counts: Counters, dates: seq<Date>, i: nat, j: nat)
    requires i < j < |dates|
    ensures dates[i] == dates[j] ==> Suffix(counts, dates, i) < Suffix(counts, dates, j)
  {
    if dates[i] == dates[j] {
      var mid := dates[i + 1..j + 1];
      assert dates[..j + 1] == dates[..i + 1] + mid;
      assert mid[j - i - 1] == dates[j];
    }
  }

  /** Every count from 1 up to a date's number of occurrences is reached at one of them. */
  lemma {:induction false} OccurrenceAt(dates: seq<Date>, d: Date, k: nat)
    requires 1 <= k <= multiset(dates)[d]
    ensures exists i :: 0 <= i < |dates| && dates[i] == d && Seen(dates, i + 1, d) == k
    decreases |dates|
  {
    var n := |dates| - 1;
    var front := dates[..n];
    assert dates == front + [dates[n]];
    assert multiset(dates)[d] == multiset(front)[d] + if dates[n] == d then 1 else 0;
    if k <= multiset(front)[d] {
      OccurrenceAt(front, d, k);
      var i :| 0 <= i < |front| && front[i] == d && Seen(front, i + 1, d) == k;
      assert front[..i + 1] == dates[..i + 1];
      assert dates[i] == d && Seen(dates, i + 1, d) == k;
    } else {
      assert dates[..n + 1] == dates;
      assert dates[n] == d && Seen(dates, n + 1, d) == k;
    }
  }

  /** The suffixes given to one date over a fresh pass are exactly 1 to n, n being its
      number of occurrences: each k in that range is the suffix of one of its calls. */
  lemma AssignCovers(dates: seq<Date>, d: Date, k: nat)
    requires forall j :: 0 <= j < |dates| ==> ValidDate(dates[j])
    requires 1 <= k <= multiset(dates)[d]
    ensures exists i :: 0 <= i < |dates| && dates[i] == d && Assign(map[], dates).1[i] == IdText(d, k)
  {
    OccurrenceAt(dates, d, k);
    var i :| 0 <= i < |dates| && dates[i] == d && Seen(dates, i + 1, d) == k;
    AssignAt(map[], dates, i);
    assert Suffix(map[], dates, i) == k;
    assert Assign(map[], dates).1[i] == IdText(d, k);
  }
}

=== FILE: records.dfy ===
/** The row acceptor and record builder: one CSV row of a Fidelity account history
    becomes an investment statement line, is skipped, or raises on a malformed number. */
module Records {
  import opened Wrappers
  import opened Dates
  import opened Decimals
  import opened Classifier

  /** The number of columns of a history row: Run Date, Action, Symbol, Description, Type,
      Quantity, Price, Commission, Fees, Accrued Interest, Amount, Cash Balance, Settlement Date. */
  const Width: nat := 13

  const ActionColumn: nat := 1
  const SymbolColumn: nat := 2
  const QuantityColumn: nat := 5
  const PriceColumn: nat := 6
  const FeesColumn: nat := 8
  const AmountColumn: nat := 10
  const SettlementColumn: nat := 12

  /** An investment statement line. `id` stays unset until the statement assigns ids;
      `kind` holds `trntype` and `trntype_detailed`, which are set together or not at all. */
  datatype InvestLine = InvestLine(
    id: Option<string>,
    date: Date,
    dateUser: Date,
    memo: string,
    kind: Option<Kind>,
    securityId: Option<string>,
    units: Option<Decimal>,
    unitPrice: Option<Decimal>,
    fees: Option<Decimal>,
    amount: Option<Decimal>)

  /** `strptime(field[0:10], "%m/%d/%Y")`. */
  function DateField(field: string): (r: Option<Date>)
    ensures r.Some? ==> ValidDate(r.value)
  {
    ParseMdy(Head(field, 10))
  }

  /** A buy or a sell: the kinds that carry a security, a quantity and a price. */
  predicate IsTrade(kind: Option<Kind>)
  {
    kind.Some? && (kind.value.trntype == BuyStock || kind.value.trntype == SellStock)
  }

  /** A dividend: the kind that carries a security only. */
  predicate IsDividend(kind: Option<Kind>)
  {
    kind.Some? && kind.value.trntype == Income && kind.value.detail == Div
  }

  /** The settlement date when the column holds one, the run date otherwise. */
  function SettlementDate(field: string, date: Date): (r: Date)
    ensures field != "" && DateField(field).Some? ==> r == DateField(field).value
    ensures field == "" || DateField(field).None? ==> r == date
  {
    if field != "" then
      match DateField(field)
      case Some(d) => d
      case None => date
    else date
  }

  /** An amount column that is only read when it is non-empty: `Ok(None)` when empty,
      `Err(column)` when `parse_decimal` raises. */
  function OptionalDecimal(line: seq<string>, column: nat): (r: Result<Option<Decimal>, nat>)
    requires column < |line|
    ensures r.Ok? <==> line[column] == "" || ParseDecimal(line[column]).Some?
    ensures r.Ok? ==> r.value == (if line[column] == "" then None else ParseDecimal(line[column]))
    ensures r.Err? ==> r.error == column
  {
    if line[column] == "" then Ok(None)
    else
      match ParseDecimal(line[column])
      case None => Err(column)
      case Some(d) => Ok(Some(d))
  }

  /** `parse_record`: `Ok(None)` for a skipped row, `Ok(Some(line))` for a record, and
      `Err(column)` when `parse_decimal` raises on that column, which aborts the whole parse. */
  function ParseRecord(line: seq<string>): (r: Result<Option<InvestLine>, nat>)
    requires |line| >= 1
    // A row is skipped exactly when its first ten characters are no date or it has not 13 columns.
    ensures r == Ok(None) <==> DateField(line[0]).None? || |line| != Width
    ensures r.Ok? && r.value.Some? ==> Accepted(line, r.value.value)
  {
    match DateField(line[0])
    case None => Ok(None)
    case Some(date) =>
      if |line| != Width then Ok(None)
      else
        var dateUser := SettlementDate(line[SettlementColumn], date);
        var memo := line[ActionColumn];
        match OptionalDecimal(line, FeesColumn)
        case Err(c) => Err(c)
        case Ok(fees) =>
          match OptionalDecimal(line, AmountColumn)
          case Err(c) => Err(c)
          case Ok(amount) =>
            KindFields(line, InvestLine(None, date, dateUser, memo, Classify(line[ActionColumn]), None, None, None, fees, amount))
  }

  /** The fields `parse_record` sets by kind once the common ones are in `base`: the symbol,
      quantity and price of a trade, the symbol of a dividend. */
  function KindFields(line: seq<string>, base: InvestLine): (r: Result<Option<InvestLine>, nat>)
    requires |line| == Width
    requires base.securityId.None? && base.units.None? && base.unitPrice.None?
    ensures r.Err? <==> IsTrade(base.kind) && (Malformed(line, QuantityColumn) || Malformed(line, PriceColumn))
    ensures r.Err? ==> r.error == if Malformed(line, QuantityColumn) then QuantityColumn else PriceColumn
    ensures r.Ok? ==> r.value == Some(base.(
      securityId := if IsTrade(base.kind) || IsDividend(base.kind) then Some(line[SymbolColumn]) else None,
      units := if IsTrade(base.kind) then ParseDecimal(line[QuantityColumn]) else None,
      unitPrice := if IsTrade(base.kind) then ParseDecimal(line[PriceColumn]) else None))
  {
    if IsTrade(base.kind) then
      match ParseDecimal(line[QuantityColumn])
      case None => Err(QuantityColumn)
      case Some(units) =>
        match ParseDecimal(line[PriceColumn])
        case None => Err(PriceColumn)
        case Some(price) =>
          Ok(Some(base.(securityId := Some(line[SymbolColumn]), units := Some(units), unitPrice := Some(price))))
    else if IsDividend(base.kind) then
      Ok(Some(base.(securityId := Some(line[SymbolColumn]))))
    else
      Ok(Some(base))
  }

  /** Whether `parse_record` hands the column to `parse_decimal`: fees and amount when
      non-empty, quantity and price for a trade even when empty. */
  predicate Evaluated(line: seq<string>, column: nat)
    requires |line| == Width
  {
    || (column == FeesColumn && line[FeesColumn] != "")
    || (column == AmountColumn && line[AmountColumn] != "")
    || ((column == QuantityColumn || column == PriceColumn) && IsTrade(Classify(line[ActionColumn])))
  }

  /** The position of a column in the order `parse_record` evaluates them. */
  function Rank(column: nat): nat
  {
    if column == FeesColumn then 0
    else if column == AmountColumn then 1
    else if column == QuantityColumn then 2
    else 3
  }

  /** No column among the first `k` that `parse_record` evaluates raises. */
  predicate CleanBefore(line: seq<string>, k: nat)
    requires |line| == Width
  {
    && (k > 0 ==> !(Evaluated(line, FeesColumn) && Malformed(line, FeesColumn)))
    && (k > 1 ==> !(Evaluated(line, AmountColumn) && Malformed(line, AmountColumn)))
    && (k > 2 ==> !(Evaluated(line, QuantityColumn) && Malformed(line, QuantityColumn)))
    && (k > 3 ==> !(Evaluated(line, PriceColumn) && Malformed(line, PriceColumn)))
  }

  /** Whether `parse_decimal` refuses the text of a column. */
  predicate Malformed(line: seq<string>, column: nat)
    requires column < |line|
  {
    ParseDecimal(line[column]).None?
  }

  /** What an accepted row yields, field by field. */
  predicate Accepted(line: seq<string>, rec: InvestLine)
    requires |line| >= 1
  {
    && |line| == Width
    && DateField(line[0]) == Some(rec.date)
    && rec.id == None
    && rec.dateUser == SettlementDate(line[SettlementColumn], rec.date)
    && rec.memo == line[ActionColumn]
    && rec.fees == (if line[FeesColumn] == "" then None else ParseDecimal(line[FeesColumn]))
    && rec.amount == (if line[AmountColumn] == "" then None else ParseDecimal(line[AmountColumn]))
    && rec.kind == Classify(line[ActionColumn])
    && rec.securityId == (if IsTrade(rec.kind) || IsDividend(rec.kind) then Some(line[SymbolColumn]) else None)
    && rec.units == (if IsTrade(rec.kind) then ParseDecimal(line[QuantityColumn]) else None)
    && rec.unitPrice == (if IsTrade(rec.kind) then ParseDecimal(line[PriceColumn]) else None)
  }

  /** `parse_decimal` raises exactly when a column it is handed is malformed, and the column
      reported is evaluated, malformed, and preceded by no malformed evaluated column. */
  lemma ParseRecordFails(line: seq<string>)
    requires |line| == Width && DateField(line[0]).Some?
    ensures ParseRecord(line).Err? <==> !CleanBefore(line, 4)
    ensures ParseRecord(line).Err? ==>
      var c := ParseRecord(line).error;
      c < Width && Evaluated(line, c) && Malformed(line, c) && CleanBefore(line, Rank(c))
  {
    var trade := IsTrade(Classify(line[ActionColumn]));
    if Evaluated(line, FeesColumn) && Malformed(line, FeesColumn) {
      RaisesOnFees(line);
    } else if Evaluated(line, AmountColumn) && Malformed(line, AmountColumn) {
      RaisesOnAmount(line);
    } else if trade && Malformed(line, QuantityColumn) {
      RaisesOnQuantity(line);
    } else if trade && Malformed(line, PriceColumn) {
      RaisesOnPrice(line);
    } else {
      RaisesNot(line);
    }
  }

  lemma RaisesOnFees(line: seq<string>)
    requires |line| == Width && DateField(line[0]).Some?
    requires line[FeesColumn] != "" && Malformed(line, FeesColumn)
    ensures ParseRecord(line) == Err(FeesColumn)
  {
    assert OptionalDecimal(line, FeesColumn) == Err(FeesColumn);
  }

  lemma RaisesOnAmount(line: seq<string>)
    requires |line| == Width && DateField(line[0]).Some? && CleanBefore(line, 1)
    requires line[AmountColumn] != "" && Malformed(line, AmountColumn)
    ensures ParseRecord(line) == Err(AmountColumn)
  {
    assert OptionalDecimal(line, FeesColumn).Ok?;
    assert OptionalDecimal(line, AmountColumn) == Err(AmountColumn);
  }

  lemma RaisesOnQuantity(line: seq<string>)
    requires |line| == Width && DateField(line[0]).Some? && CleanBefore(line, 2)
    requires IsTrade(Classify(line[ActionColumn])) && Malformed(line, QuantityColumn)
    ensures ParseRecord(line) == Err(QuantityColumn)
  {
    ReachesKindFields(line);
  }

  lemma RaisesOnPrice(line: seq<string>)
    requires |line| == Width && DateField(line[0]).Some? && CleanBefore(line, 3)
    requires IsTrade(Classify(line[ActionColumn])) && Malformed(line, PriceColumn)
    ensures ParseRecord(line) == Err(PriceColumn)
  {
    ReachesKindFields(line);
  }

  /** Once fees and amount parse, `parse_record` is down to the kind-specific fields. */
  lemma ReachesKindFields(line: seq<string>)
    requires |line| == Width && DateField(line[0]).Some? && CleanBefore(line, 2)
    ensures OptionalDecimal(line, FeesColumn).Ok? && OptionalDecimal(line, AmountColumn).Ok?
    ensures var d := DateField(line[0]).value;
      ParseRecord(line) == KindFields(line, InvestLine(
        None, d, SettlementDate(line[SettlementColumn], d), line[ActionColumn], Classify(line[ActionColumn]),
        None, None, None, OptionalDecimal(line, FeesColumn).value, OptionalDecimal(line, AmountColumn).value))
  {
    assert OptionalDecimal(line, FeesColumn).Ok?;
    assert OptionalDecimal(line, AmountColumn).Ok?;
  }

  lemma RaisesNot(line: seq<string>)
    requires |line| == Width && DateField(line[0]).Some? && CleanBefore(line, 4)
    ensures ParseRecord(line).Ok?
  {
    ReachesKindFields(line);
  }

  /** A purchase row (one whose action classifies as BUYSTOCK/BUY, as "YOU BOUGHT …" does) makes
      a record carrying the symbol, the quantity and the price next to the date, settlement date
      and memo. */
  lemma BoughtRow(line: seq<string>, d: Date, fees: Option<Decimal>, amount: Decimal, units: Decimal, price: Decimal)
    requires |line| == Width && DateField(line[0]) == Some(d)
    requires Classify(line[ActionColumn]) == Some(Kind(BuyStock, Buy))
    requires ParseDecimal(line[QuantityColumn]) == Some(units) && ParseDecimal(line[PriceColumn]) == Some(price)
    requires OptionalDecimal(line, FeesColumn) == Ok(fees) && ParseDecimal(line[AmountColumn]) == Some(amount)
    ensures ParseRecord(line) == Ok(Some(InvestLine(
      None, d, SettlementDate(line[SettlementColumn], d), line[ActionColumn], Some(Kind(BuyStock, Buy)),
      Some(line[SymbolColumn]), Some(units), Some(price), fees, Some(amount))))
  {
    assert line[AmountColumn] != "" by { ParseEmptyFails(); }
    assert IsTrade(Classify(line[ActionColumn]));
    assert OptionalDecimal(line, AmountColumn) == Ok(Some(amount));
  }

  /** A dividend row (one whose action classifies as INCOME/DIV, as "DIVIDEND RECEIVED …" does)
      makes a record carrying the symbol and the amount, and no quantity or price whatever those
      columns hold. */
  lemma DividendRow(line: seq<string>, d: Date, fees: Option<Decimal>, amount: Decimal)
    requires |line| == Width && DateField(line[0]) == Some(d)
    requires Classify(line[ActionColumn]) == Some(Kind(Income, Div))
    requires OptionalDecimal(line, FeesColumn) == Ok(fees) && ParseDecimal(line[AmountColumn]) == Some(amount)
    ensures ParseRecord(line) == Ok(Some(InvestLine(
      None, d, SettlementDate(line[SettlementColumn], d), line[ActionColumn], Some(Kind(Income, Div)),
      Some(line[SymbolColumn]), None, None, fees, Some(amount))))
  {
    assert line[AmountColumn] != "" by { ParseEmptyFails(); }
    assert !IsTrade(Classify(line[ActionColumn])) && IsDividend(Classify(line[ActionColumn]));
    assert OptionalDecimal(line, AmountColumn) == Ok(Some(amount));
  }
}

=== FILE: statements.dfy ===
/** The statement assembler: the accepted records of a history file in input order become
    a statement in chronological order, with ids, date bounds and the account id. */
module Statements {
  import opened Wrappers
  import opened Strings
  import opened Dates
  import opened Records
  import opened Ids

  const Broker: string := "Fidelity"
  const Currency: string := "USD"

  /** Why a parse stops: `parse_decimal` raised on a column of a row, or `assert_valid`
      refused a line of the sequenced statement. */
  datatype ParseError = MalformedNumber(row: nat, column: nat) | InvalidLine(index: nat)

  /** The investment statement `parse` returns. */
  datatype Statement = Statement(
    brokerId: string,
    currency: string,
    accountId: Option<string>,
    lines: seq<InvestLine>,
    startDate: Option<Date>,
    endDate: Option<Date>)

  // ---------------------------------------------------------------------------------------
  // The account id: `re.search(r".*History_for_Account_(.*)\.csv", path.basename(filename))`

  const Marker: string := "History_for_Account_"
  const Suffix: string := ".csv"

  /** `os.path.basename`: the text after the last `/`. */
  function Basename(path: string): (r: string)
    ensures |r| <= |path| && r == path[|path| - |r|..]
    ensures forall k :: 0 <= k < |r| ==> r[k] != '/'
    ensures |r| < |path| ==> path[|path| - |r| - 1] == '/'
  {
    path[AfterLast(path, '/')..]
  }

  /** The last position at which `p` occurs ending no later than `end`. */
  function LastAt(s: string, p: string, end: nat): (r: Option<nat>)
    requires end <= |s|
    ensures r.Some? ==> r.value + |p| <= end && OccursAt(s, p, r.value)
    decreases end
  {
    if end < |p| then None
    else if OccursAt(s, p, end - |p|) then Some(end - |p|)
    else if end == 0 then None
    else LastAt(s, p, end - 1)
  }

  /** No occurrence of `p` ends after what `LastAt` found and no later than `end`. */
  lemma {:induction false} LastAtIsLast(s: string, p: string, end: nat, i: nat)
    requires end <= |s| && i + |p| <= end && OccursAt(s, p, i)
    ensures LastAt(s, p, end).Some? && i <= LastAt(s, p, end).value
    decreases end
  {
    if !OccursAt(s, p, end - |p|) {
      assert i + |p| < end;
      LastAtIsLast(s, p, end - 1, i);
    }
  }

  /** A marker at `q` and a `.csv` at `t`, with the capture `line[q + |Marker|..t]` between them. */
  predicate Brackets(line: string, q: nat, t: nat)
  {
    OccursAt(line, Marker, q) && OccursAt(line, Suffix, t) && q + |Marker| <= t
  }

  /** The brackets the greedy pattern picks: no `.csv` starts after `t`, and no marker starts
      after `q` and still ends by `t`. */
  predicate Greedy(line: string, q: nat, t: nat)
  {
    && Brackets(line, q, t)
    && (forall j :: t < j <= |line| ==> !OccursAt(line, Suffix, j))
    && (forall j :: q < j && j + |Marker| <= t ==> !OccursAt(line, Marker, j))
  }

  /** The pattern on one line of text (`.` matches anything but a newline). The leading `.*` is
      greedy, so the marker is its last occurrence that still has a `.csv` after it; the group is
      greedy too, so it runs up to the last `.csv` of the line. */
  function MatchIn(line: string): (r: Option<string>)
    ensures r.Some? ==> Contains(line, Marker + r.value + Suffix)
    ensures r.Some? ==> exists q: nat, t: nat :: Greedy(line, q, t) && r.value == line[q + |Marker|..t]
  {
    match LastAt(line, Suffix, |line|)
    case None => None
    case Some(t) =>
      match LastAt(line, Marker, t)
      case None => None
      case Some(q) =>
        var id := line[q + |Marker|..t];
        assert line[q..t + |Suffix|] == Marker + id + Suffix by {
          assert line[q..q + |Marker|] == Marker;
          assert line[t..t + |Suffix|] == Suffix;
        }
        assert OccursAt(line, Marker + id + Suffix, q);
        forall j | t < j <= |line|
          ensures !OccursAt(line, Suffix, j)
        {
          if OccursAt(line, Suffix, j) {
            LastAtIsLast(line, Suffix, |line|, j);
          }
        }
        forall j | q < j && j + |Marker| <= t
          ensures !OccursAt(line, Marker, j)
        {
          if OccursAt(line, Marker, j) {
            LastAtIsLast(line, Marker, t, j);
          }
        }
        assert Greedy(line, q, t);
        Some(id)
  }

  /** The greedy brackets of a line are unique, so they pin the capture. */
  lemma GreedyUnique(line: string, q: nat, t: nat, q': nat, t': nat)
    requires Greedy(line, q, t) && Greedy(line, q', t')
    ensures q == q' && t == t'
  {
  }

  /** A line holding a marker with a `.csv` somewhere after it always matches. */
  lemma MatchInFinds(line: string, q: nat, t: nat)
    requires OccursAt(line, Marker, q) && OccursAt(line, Suffix, t) && q + |Marker| <= t
    ensures MatchIn(line).Some?
  {
    LastAtIsLast(line, Suffix, |line|, t);
    var last := LastAt(line, Suffix, |line|).value;
    LastAtIsLast(line, Marker, last, q);
  }

  /** `re.search` tries every start; a match never crosses a newline, so the first line holding
      a match gives the capture. */
  function AccountId(name: string): (r: Option<string>)
    ensures r.Some? ==> Contains(name, Marker + r.value + Suffix)
    decreases |name|
  {
    var n := IndexOf(name, '\n');
    match MatchIn(name[..n])
    case Some(id) =>
      ContainsInPrefix(name, n, Marker + id + Suffix);
      Some(id)
    case None =>
      if n == |name| then None
      else
        var r := AccountId(name[n + 1..]);
        if r.Some? then
          ContainsInSuffix(name, n + 1, Marker + r.value + Suffix);
          r
        else r
  }

  /** `p` occurs somewhere in `s`. */
  ghost predicate Contains(s: string, p: string)
  {
    exists q: nat :: OccursAt(s, p, q)
  }

  lemma ContainsInPrefix(s: string, m: nat, p: string)
    requires m <= |s| && Contains(s[..m], p)
    ensures Contains(s, p)
  {
    var i: nat :| OccursAt(s[..m], p, i);
    OccursInPrefix(s, m, p, i);
  }

  lemma ContainsInSuffix(s: string, m: nat, p: string)
    requires m <= |s| && Contains(s[m..], p)
    ensures Contains(s, p)
  {
    var i: nat :| OccursAt(s[m..], p, i);
    OccursInSuffix(s, m, p, i);
  }

  /** An occurrence in a prefix of a string is one in the string. */
  lemma OccursInPrefix(s: string, m: nat, p: string, i: nat)
    requires m <= |s| && OccursAt(s[..m], p, i)
    ensures OccursAt(s, p, i)
  {
    assert s[..m][i..i + |p|] == s[i..i + |p|];
  }

  /** An occurrence in a suffix of a string is one in the string, shifted. */
  lemma OccursInSuffix(s: string, m: nat, p: string, i: nat)
    requires m <= |s| && OccursAt(s[m..], p, i)
    ensures OccursAt(s, p, m + i)
  {
    assert s[m..][i..i + |p|] == s[m + i..m + i + |p|];
  }

  /** A name with no `.csv` anywhere has no account id. */
  lemma {:induction false} AccountIdNeedsSuffix(name: string)
    requires forall i :: 0 <= i < |name| ==> !OccursAt(name, Suffix, i)
    ensures AccountId(name).None?
    decreases |name|
  {
    var n := IndexOf(name, '\n');
    var line := name[..n];
    var t := LastAt(line, Suffix, |line|);
    if t.Some? {
      OccursInPrefix(name, n, Suffix, t.value);
      assert false;
    }
    if n < |name| {
      var rest := name[n + 1..];
      forall i | 0 <= i < |rest|
        ensures !OccursAt(rest, Suffix, i)
      {
        if OccursAt(rest, Suffix, i) {
          OccursInSuffix(name, n + 1, Suffix, i);
        }
      }
      AccountIdNeedsSuffix(rest);
    }
  }

  /** On a name without newlines the search looks at one line only. */
  lemma AccountIdOneLine(name: string)
    requires forall k :: 0 <= k < |name| ==> name[k] != '\n'
    ensures AccountId(name) == MatchIn(name)
  {
    IndexOfIs(name, '\n', |name|);
    assert name[..|name|] == name;
  }

  /** The names the export writes: the account number between the marker and `.csv`, after any
      prefix on the same line. An account number holding no `_` is captured whole. */
  lemma AccountIdOfExport(prefix: string, account: string)
    requires forall k :: 0 <= k < |prefix| ==> prefix[k] != '\n'
    requires forall k :: 0 <= k < |account| ==> account[k] != '\n' && account[k] != '_'
    ensures AccountId(prefix + Marker + account + Suffix) == Some(account)
  {
    var name := prefix + Marker + account + Suffix;
    ExportHasOneLine(prefix, account);
    AccountIdOneLine(name);
    ExportMatch(prefix, account);
  }

  /** An export name is one line. */
  lemma ExportHasOneLine(prefix: string, account: string)
    requires forall k :: 0 <= k < |prefix| ==> prefix[k] != '\n'
    requires forall k :: 0 <= k < |account| ==> account[k] != '\n'
    ensures var name := prefix + Marker + account + Suffix; forall k :: 0 <= k < |name| ==> name[k] != '\n'
  {
    var name := prefix + Marker + account + Suffix;
    forall k | 0 <= k < |name|
      ensures name[k] != '\n'
    {
      var q, t := |prefix|, |prefix| + |Marker| + |account|;
      if k < q {
        assert name[k] == prefix[k];
      } else if k < q + |Marker| {
        assert name[k] == Marker[k - q];
      } else if k < t {
        assert name[k] == account[k - q - |Marker|];
      } else {
        assert name[k] == Suffix[k - t];
      }
    }
  }

  /** The pattern on an export name captures the account number. */
  lemma ExportMatch(prefix: string, account: string)
    requires forall k :: 0 <= k < |account| ==> account[k] != '_'
    ensures MatchIn(prefix + Marker + account + Suffix) == Some(account)
  {
    var name := prefix + Marker + account + Suffix;
    var q := |prefix|;
    var t := q + |Marker| + |account|;
    assert name[t..|name|] == Suffix;
    assert LastAt(name, Suffix, |name|) == Some(t);
    assert name[q..q + |Marker|] == Marker;
    LastAtIsLast(name, Marker, t, q);
    var r := LastAt(name, Marker, t).value;
    if r != q {
      NoLaterMarker(prefix, account, r);
      assert false;
    }
    assert name[q + |Marker|..t] == account;
  }

  /** A marker ends with `_`; so no marker starts after the prefix and ends within an account
      number that holds no `_`. */
  lemma NoLaterMarker(prefix: string, account: string, r: nat)
    requires forall k :: 0 <= k < |account| ==> account[k] != '_'
    requires |prefix| < r && r + |Marker| <= |prefix| + |Marker| + |account|
    ensures !OccursAt(prefix + Marker + account + Suffix, Marker, r)
  {
    var name := prefix + Marker + account + Suffix;
    var e := r + |Marker| - 1;
    assert name[e] == account[e - |prefix| - |Marker|];
  }

  // ---------------------------------------------------------------------------------------
  // Reading the rows

  /** What the read loop does with one row: a blank row is passed over, any other goes
      through `parse_record`. */
  function ReadRow(row: seq<string>): (r: Result<Option<InvestLine>, nat>)
    ensures r.Ok? && r.value.Some? ==> |row| > 0 && Accepted(row, r.value.value) && Fit(r.value.value)
    ensures r == Ok(None) <==> |row| == 0 || DateField(row[0]).None? || |row| != Width
    ensures r.Err? ==> |row| > 0 && ParseRecord(row) == r
  {
    if |row| == 0 then Ok(None) else ParseRecord(row)
  }

  /** A record the id pass can take: a date `strftime` can write and no id yet. */
  predicate Fit(rec: InvestLine)
  {
    ValidDate(rec.date) && rec.id.None?
  }

  /** The read loop over the rows in file order, with `read` handling one row: skipped rows drop
      out, and the first row on which `read` raises aborts with its index and column. */
  function CollectBy(read: seq<string> -> Result<Option<InvestLine>, nat>, rows: seq<seq<string>>): (r: Result<seq<InvestLine>, ParseError>)
    ensures r.Ok? ==> |r.value| <= |rows|
    ensures r.Err? ==> r.error.MalformedNumber? && r.error.row < |rows| && read(rows[r.error.row]) == Err(r.error.column)
    decreases |rows|
  {
    if |rows| == 0 then Ok([])
    else
      var n := |rows| - 1;
      match CollectBy(read, rows[..n])
      case Err(e) => Err(e)
      case Ok(recs) =>
        match read(rows[n])
        case Err(c) => Err(MalformedNumber(n, c))
        case Ok(None) => Ok(recs)
        case Ok(Some(rec)) => Ok(recs + [rec])
  }

  /** The read loop of `parse`. */
  function Collect(rows: seq<seq<string>>): (r: Result<seq<InvestLine>, ParseError>)
    ensures r.Ok? ==> forall k :: 0 <= k < |r.value| ==> Fit(r.value[k])
    ensures r.Err? ==>
      && r.error.MalformedNumber? && r.error.row < |rows| && |rows[r.error.row]| > 0
      && ParseRecord(rows[r.error.row]) == Err(r.error.column)
  {
    CollectFit(ReadRow, rows);
    CollectBy(ReadRow, rows)
  }

  /** Every record read is one `read` produced; so when `read` only produces fit records, so does the loop. */
  lemma {:induction false} CollectFit(read: seq<string> -> Result<Option<InvestLine>, nat>, rows: seq<seq<string>>)
    requires forall row :: read(row).Ok? && read(row).value.Some? ==> Fit(read(row).value.value)
    ensures CollectBy(read, rows).Ok? ==>
      forall k :: 0 <= k < |CollectBy(read, rows).value| ==> Fit(CollectBy(read, rows).value[k])
    decreases |rows|
  {
    if |rows| > 0 {
      CollectFit(read, rows[..|rows| - 1]);
    }
  }

  /** What one row contributes on its own: nothing when blank or skipped, its record when
      accepted, its column when `parse_record` raises. */
  lemma CollectRow(row: seq<string>)
    ensures Collect([row]) ==
      match ReadRow(row)
      case Err(c) => Err(MalformedNumber(0, c))
      case Ok(None) => Ok([])
      case Ok(Some(rec)) => Ok([rec])
  {
    CollectByRow(ReadRow, row);
  }

  lemma CollectByRow(read: seq<string> -> Result<Option<InvestLine>, nat>, row: seq<string>)
    ensures CollectBy(read, [row]) ==
      match read(row)
      case Err(c) => Err(MalformedNumber(0, c))
      case Ok(None) => Ok([])
      case Ok(Some(rec)) => Ok([rec])
  {
    assert [row][..0] == [];
    assert CollectBy(read, [row][..0]) == Ok([]);
    if read(row).Ok? && read(row).value.Some? {
      assert [] + [read(row).value.value] == [read(row).value.value];
    }
  }

  /** Reading two stretches of rows in turn: an error in the first wins; otherwise the records
      of the second follow those of the first, and its errors are shifted by the first's length.
      This holds for any row reader, `ReadRow` included. */
  lemma {:induction false} CollectByAppend(read: seq<string> -> Result<Option<InvestLine>, nat>, a: seq<seq<string>>, b: seq<seq<string>>)
    ensures AppendHolds(read, a, b)
    decreases |b|
  {
    if |b| == 0 {
      assert a + b == a;
      if CollectBy(read, a).Ok? {
        assert CollectBy(read, a).value + [] == CollectBy(read, a).value;
      }
    } else {
      CollectByAppend(read, a, b[..|b| - 1]);
      CollectByAppendStep(read, a, b);
    }
  }

  /** The equation of `CollectByAppend` for two given stretches of rows. */
  predicate AppendHolds(read: seq<string> -> Result<Option<InvestLine>, nat>, a: seq<seq<string>>, b: seq<seq<string>>)
  {
    CollectBy(read, a + b) ==
      match CollectBy(read, a)
      case Err(e) => Err(e)
      case Ok(x) =>
        match CollectBy(read, b)
        case Err(e) => Err(MalformedNumber(|a| + e.row, e.column))
        case Ok(y) => Ok(x + y)
  }

  /** The equation carries over from all rows of `b` but its last to all of `b`. */
  lemma CollectByAppendStep(read: seq<string> -> Result<Option<InvestLine>, nat>, a: seq<seq<string>>, b: seq<seq<string>>)
    requires |b| > 0 && AppendHolds(read, a, b[..|b| - 1])
    ensures AppendHolds(read, a, b)
  {
    var n := |b| - 1;
    assert (a + b)[..|a| + n] == a + b[..n];
    assert (a + b)[|a| + n] == b[n];
    match CollectBy(read, a)
    case Err(e) =>
    case Ok(x) =>
      match CollectBy(read, b[..n])
      case Err(e) =>
      case Ok(y) =>
        assert CollectBy(read, a + b[..n]) == Ok(x + y);
        match read(b[n])
        case Err(c) =>
          assert CollectBy(read, b) == Err(MalformedNumber(n, c));
        case Ok(None) =>
          assert CollectBy(read, b) == Ok(y);
        case Ok(Some(rec)) =>
          assert CollectBy(read, b) == Ok(y + [rec]);
          assert x + y + [rec] == x + (y + [rec]);
  }

  /** A read succeeds exactly when no non-empty row raises, and an error names the first row
      that does. */
  lemma CollectFails(rows: seq<seq<string>>)
    ensures Collect(rows).Ok? <==> forall k :: 0 <= k < |rows| && |rows[k]| > 0 ==> ParseRecord(rows[k]).Ok?
    ensures Collect(rows).Err? ==> forall k :: 0 <= k < Collect(rows).error.row && |rows[k]| > 0 ==> ParseRecord(rows[k]).Ok?
  {
    CollectByFails(ReadRow, rows);
    forall k | 0 <= k < |rows|
      ensures ReadRow(rows[k]).Ok? <==> |rows[k]| == 0 || ParseRecord(rows[k]).Ok?
    {
    }
  }

  lemma {:induction false} CollectByFails(read: seq<string> -> Result<Option<InvestLine>, nat>, rows: seq<seq<string>>)
    ensures CollectBy(read, rows).Ok? <==> forall k :: 0 <= k < |rows| ==> read(rows[k]).Ok?
    ensures CollectBy(read, rows).Err? ==> forall k :: 0 <= k < CollectBy(read, rows).error.row ==> read(rows[k]).Ok?
    decreases |rows|
  {
    if |rows| > 0 {
      var n := |rows| - 1;
      var front := rows[..n];
      CollectByFails(read, front);
      assert forall k :: 0 <= k < n ==> rows[k] == front[k];
    }
  }

  // ---------------------------------------------------------------------------------------
  // Sequencing: reverse, ids, bounds

  /** `list.reverse()`. */
  function Reverse<T>(s: seq<T>): (r: seq<T>)
    ensures |r| == |s|
    ensures forall i :: 0 <= i < |s| ==> r[i] == s[|s| - 1 - i]
  {
    if |s| == 0 then [] else [s[|s| - 1]] + Reverse(s[..|s| - 1])
  }

  /** Reversing twice gives the list back. */
  lemma ReverseInvolutive<T>(s: seq<T>)
    ensures Reverse(Reverse(s)) == s
  {
  }

  function DatesOf(lines: seq<InvestLine>): (r: seq<Date>)
    ensures |r| == |lines| && forall i :: 0 <= i < |lines| ==> r[i] == lines[i].date
  {
    seq(|lines|, i requires 0 <= i < |lines| => lines[i].date)
  }

  /** The id pass of `parse`: one generator, fresh for the statement, called on each line's date
      in list order; each line gets the id of its call. */
  function Stamp(lines: seq<InvestLine>): (r: seq<InvestLine>)
    requires forall i :: 0 <= i < |lines| ==> ValidDate(lines[i].date)
    ensures |r| == |lines|
    ensures forall i :: 0 <= i < |lines| ==> r[i] == lines[i].(id := r[i].id) && r[i].id.Some?
  {
    var ids := Assign(map[], DatesOf(lines)).1;
    seq(|lines|, i requires 0 <= i < |lines| => lines[i].(id := Some(ids[i])))
  }

  /** The `i`-th stamped line carries `YYYYMMDD-k`, `k` counting the lines up to and including it
      that share its date. */
  lemma StampId(lines: seq<InvestLine>, i: nat)
    requires forall j :: 0 <= j < |lines| ==> ValidDate(lines[j].date)
    requires i < |lines|
    ensures Stamp(lines)[i].id == Some(IdText(lines[i].date, Seen(DatesOf(lines), i + 1, lines[i].date)))
  {
    AssignFresh(DatesOf(lines), i);
  }

  /** No two stamped lines share an id. */
  lemma StampDistinct(lines: seq<InvestLine>, i: nat, j: nat)
    requires forall k :: 0 <= k < |lines| ==> ValidDate(lines[k].date)
    requires i < |lines| && j < |lines| && i != j
    ensures Stamp(lines)[i].id != Stamp(lines)[j].id
  {
    if i < j {
      AssignDistinct(map[], DatesOf(lines), i, j);
    } else {
      AssignDistinct(map[], DatesOf(lines), j, i);
    }
  }

  /** `min` over the dates of a non-empty list. */
  function MinDate(dates: seq<Date>): (r: Date)
    requires |dates| > 0
    ensures r in dates
    ensures forall k :: 0 <= k < |dates| ==> NotAfter(r, dates[k])
  {
    if |dates| == 1 then dates[0]
    else
      var m := MinDate(dates[1..]);
      assert forall k :: 1 <= k < |dates| ==> NotAfter(m, dates[k]) by {
        forall k | 1 <= k < |dates| ensures NotAfter(m, dates[k]) {
          assert dates[k] == dates[1..][k - 1];
        }
      }
      if NotAfter(dates[0], m) then
        NotAfterChain(dates[0], m, dates);
        dates[0]
      else
        NotAfterTotal(dates[0], m);
        m
  }

  /** `max` over the dates of a non-empty list. */
  function MaxDate(dates: seq<Date>): (r: Date)
    requires |dates| > 0
    ensures r in dates
    ensures forall k :: 0 <= k < |dates| ==> NotAfter(dates[k], r)
  {
    if |dates| == 1 then dates[0]
    else
      var m := MaxDate(dates[1..]);
      assert forall k :: 1 <= k < |dates| ==> NotAfter(dates[k], m) by {
        forall k | 1 <= k < |dates| ensures NotAfter(dates[k], m) {
          assert dates[k] == dates[1..][k - 1];
        }
      }
      if NotAfter(m, dates[0]) then
        NotAfterChainUp(m, dates[0], dates);
        dates[0]
      else
        NotAfterTotal(dates[0], m);
        m
  }

  lemma NotAfterChain(a: Date, m: Date, dates: seq<Date>)
    requires NotAfter(a, m) && |dates| > 0
    requires forall k :: 1 <= k < |dates| ==> NotAfter(m, dates[k])
    ensures forall k :: 1 <= k < |dates| ==> NotAfter(a, dates[k])
  {
    forall k | 1 <= k < |dates| ensures NotAfter(a, dates[k]) {
      NotAfterTransitive(a, m, dates[k]);
    }
  }

  lemma NotAfterChainUp(m: Date, a: Date, dates: seq<Date>)
    requires NotAfter(m, a) && |dates| > 0
    requires forall k :: 1 <= k < |dates| ==> NotAfter(dates[k], m)
    ensures forall k :: 1 <= k < |dates| ==> NotAfter(dates[k], a)
  {
    forall k | 1 <= k < |dates| ensures NotAfter(dates[k], a) {
      NotAfterTransitive(dates[k], m, a);
    }
  }

  /** The index of the first line `assert_valid` refuses, or the length when it accepts all. */
  function FirstInvalid(lines: seq<InvestLine>, isValid: InvestLine -> bool): (r: nat)
    ensures r <= |lines|
    ensures r < |lines| ==> !isValid(lines[r])
    ensures forall k :: 0 <= k < r ==> isValid(lines[k])
  {
    if |lines| == 0 then 0
    else if !isValid(lines[0]) then 0
    else 1 + FirstInvalid(lines[1..], isValid)
  }

  // ---------------------------------------------------------------------------------------
  // `parse`

  /** `parse` on the rows the CSV reader yields for the file `filename`; `isValid` stands for
      `assert_valid`, whose rules belong to the statement library. */
  function Parse(filename: string, rows: seq<seq<string>>, isValid: InvestLine -> bool): (r: Result<Statement, ParseError>)
    ensures r.Ok? ==> r.value.brokerId == Broker && r.value.currency == Currency
    ensures r.Ok? ==> r.value.accountId == AccountId(Basename(filename))
    ensures r.Ok? ==> forall i :: 0 <= i < |r.value.lines| ==> isValid(r.value.lines[i]) && r.value.lines[i].id.Some?
    ensures r.Ok? ==> (r.value.startDate.Some? <==> |r.value.lines| > 0) && (r.value.endDate.Some? <==> |r.value.lines| > 0)
    ensures r.Err? <==> Collect(rows).Err? || FirstInvalid(Stamp(Reverse(Collect(rows).value)), isValid) < |Collect(rows).value|
  {
    match Collect(rows)
    case Err(e) => Err(e)
    case Ok(recs) =>
      var lines := Stamp(Reverse(recs));
      var bad := FirstInvalid(lines, isValid);
      if bad < |lines| then Err(InvalidLine(bad))
      else
        var dates := DatesOf(lines);
        Ok(Statement(
          Broker, Currency, AccountId(Basename(filename)), lines,
          if |lines| > 0 then Some(MinDate(dates)) else None,
          if |lines| > 0 then Some(MaxDate(dates)) else None))
  }

  /** The lines of a parsed statement are the accepted records in reverse input order, each with
      its id: the date and its running count among the lines up to it. */
  lemma ParseLines(filename: string, rows: seq<seq<string>>, isValid: InvestLine -> bool, i: nat)
    requires Parse(filename, rows, isValid).Ok?
    requires i < |Parse(filename, rows, isValid).value.lines|
    ensures Collect(rows).Ok?
    ensures var recs := Collect(rows).value; var lines := Parse(filename, rows, isValid).value.lines;
      && |lines| == |recs|
      && lines[i].(id := None) == recs[|recs| - 1 - i]
      && lines[i].id == Some(IdText(lines[i].date, Seen(DatesOf(lines), i + 1, lines[i].date)))
  {
    ParseShape(filename, rows, isValid);
    StampReversed(Collect(rows).value, i);
  }

  /** Line `i` of the stamped reversal is record `|recs| - 1 - i`, given its id. */
  lemma StampReversed(recs: seq<InvestLine>, i: nat)
    requires forall k :: 0 <= k < |recs| ==> ValidDate(recs[k].date)
    requires i < |recs| && recs[|recs| - 1 - i].id.None?
    ensures |Stamp(Reverse(recs))| == |recs|
    ensures var st := Stamp(Reverse(recs));
      && st[i].(id := None) == recs[|recs| - 1 - i]
      && st[i].id == Some(IdText(st[i].date, Seen(DatesOf(st), i + 1, st[i].date)))
  {
    var rev := Reverse(recs);
    assert rev[i] == recs[|recs| - 1 - i];
    StampLine(rev, i);
  }

  /** Line `i` of a stamped list is line `i` of the list, given its id. */
  lemma StampLine(lines: seq<InvestLine>, i: nat)
    requires forall j :: 0 <= j < |lines| ==> ValidDate(lines[j].date)
    requires i < |lines| && lines[i].id.None?
    ensures var st := Stamp(lines);
      && st[i].(id := None) == lines[i]
      && st[i].id == Some(IdText(st[i].date, Seen(DatesOf(st), i + 1, st[i].date)))
  {
    StampId(lines, i);
    assert DatesOf(lines) == DatesOf(Stamp(lines));
  }

  /** No two lines of a parsed statement share an id. */
  lemma ParseIdsDistinct(filename: string, rows: seq<seq<string>>, isValid: InvestLine -> bool, i: nat, j: nat)
    requires Parse(filename, rows, isValid).Ok?
    requires var lines := Parse(filename, rows, isValid).value.lines; i < |lines| && j < |lines| && i != j
    ensures var lines := Parse(filename, rows, isValid).value.lines; lines[i].id != lines[j].id
  {
    StampDistinct(Reverse(Collect(rows).value), i, j);
  }

  /** The bounds of a non-empty statement are dates of its lines, and every line lies between them. */
  lemma ParseBounds(filename: string, rows: seq<seq<string>>, isValid: InvestLine -> bool)
    requires Parse(filename, rows, isValid).Ok?
    ensures var st := Parse(filename, rows, isValid).value;
      st.startDate.Some? ==>
        && (exists i :: 0 <= i < |st.lines| && st.lines[i].date == st.startDate.value)
        && (exists i :: 0 <= i < |st.lines| && st.lines[i].date == st.endDate.value)
        && forall i :: 0 <= i < |st.lines| ==>
             NotAfter(st.startDate.value, st.lines[i].date) && NotAfter(st.lines[i].date, st.endDate.value)
  {
    var st := Parse(filename, rows, isValid).value;
    ParseShape(filename, rows, isValid);
    if st.startDate.Some? {
      var dates := DatesOf(st.lines);
      var i :| 0 <= i < |dates| && dates[i] == st.startDate.value;
      var j :| 0 <= j < |dates| && dates[j] == st.endDate.value;
    }
  }

  /** A statement `parse` returns, spelled out from the records read. */
  lemma ParseShape(filename: string, rows: seq<seq<string>>, isValid: InvestLine -> bool)
    requires Parse(filename, rows, isValid).Ok?
    ensures Collect(rows).Ok?
    ensures var lines := Stamp(Reverse(Collect(rows).value)); var st := Parse(filename, rows, isValid).value;
      && st.lines == lines
      && st.startDate == (if |lines| > 0 then Some(MinDate(DatesOf(lines))) else None)
      && st.endDate == (if |lines| > 0 then Some(MaxDate(DatesOf(lines))) else None)
  {
  }
}

=== FILE: strings.dfy ===
/** Searching helpers on strings (`seq<char>`), as Python's `str.find` / `str.rfind`. */
module Strings {

  /** Index of the first `c` in `s`, or `|s|` when there is none. */
  function IndexOf(s: string, c: char): (i: nat)
    ensures i <= |s|
    ensures i < |s| ==> s[i] == c
  {
    if |s| == 0 then 0
    else if s[0] == c then 0
    else 1 + IndexOf(s[1..], c)
  }

  /** Characterises `IndexOf` by its answer. */
  lemma {:induction false} IndexOfIs(s: string, c: char, i: nat)
    requires i <= |s| && (i < |s| ==> s[i] == c)
    requires forall k :: 0 <= k < i ==> s[k] != c
    ensures IndexOf(s, c) == i
  {
    if |s| > 0 && s[0] != c {
      assert i > 0;
      forall k | 0 <= k < i - 1
        ensures s[1..][k] != c
      {
        assert s[1..][k] == s[k + 1];
      }
      IndexOfIs(s[1..], c, i - 1);
    }
  }

  /** Python's `s.rfind(c) + 1`: the index just after the last `c`, or 0 when there is none. */
  function AfterLast(s: string, c: char): (i: nat)
    ensures i <= |s|
    ensures i > 0 ==> s[i - 1] == c
    ensures forall k :: i <= k < |s| ==> s[k] != c
  {
    if |s| == 0 then 0
    else if s[|s| - 1] == c then |s|
    else AfterLast(s[..|s| - 1], c)
  }

  /** `s` starts with `p` at position `i`. */
  predicate OccursAt(s: string, p: string, i: nat)
  {
    i + |p| <= |s| && s[i..i + |p|] == p
  }

  /** Two prefixes of one string: the shorter is a prefix of the longer. */
  lemma PrefixesCompare(a: string, b: string, s: string)
    requires a <= s && b <= s && |a| <= |b|
    ensures a <= b
  {
    assert a == s[..|a|];
    assert b == s[..|b|];
    assert b[..|a|] == s[..|a|];
  }
}

=== FILE: wrappers.dfy ===
/** Failure-carrying datatypes shared by the whole model. */
module Wrappers {

  /** A value that may be absent: Python's `None` or a value. */
  datatype Option<+T> = None | Some(value: T)

  /** The outcome of a step that may raise: a value, or the error it raised. */
  datatype Result<+T, +E> = Ok(value: T) | Err(error: E)

  /** Python's `dict.get(key, 0)` on a counter map. */
  function Lookup<K>(m: map<K, nat>, k: K): nat
  {
    if k in m then m[k] else 0
  }
}
